=== FILE: README.md ===
# Alavanka front end — a verified model

This project models the decision logic of the Alavanka marketing site in Dafny. That logic lives in four scripts:

- **the unified navigation component** (`public/components/nav.js`);
- **the blog-article analytics snippet** (`public/components/blog-tracking.js`);
- **the sitemap generator** (`generate-sitemap.js`);
- **the UX enhancements** (`public/components/ux-enhancements.js`).

The browser and the machine are replaced by plain values:

- the DOM, by records of the attributes and classes the code reads and writes;
- timers, by explicit tick events;
- `localStorage`/`sessionStorage`, by maps;
- `document.cookie`, by a cookie jar together with the string the browser exposes for it;
- `gtag` calls, by the events they would send.

Each handler is a pure function from the state it reads to the state it leaves.

Modules:

- `Options` — the optional value standing for `null`/unset.
- `Text` — the JavaScript string operations the scripts use:
  - `indexOf`, `split` and `join` on one character, `startsWith`/`endsWith`;
  - first-occurrence `replace`, ASCII `toLowerCase`, and the leading-space strip of `getCookie`.
- `Nav` — page depth detection, page classification, link building, active classes, and mounting the markup.
- `NavUi` — the mobile menu, the dropdowns, the breakpoint handlers and the fallback language toggle.
- `BlogTracking` — language and slug, scroll milestones, CTA classification, and detection of a switch to the alternate-language version.
- `Sitemap` — the entry list and the `urlset` document of the sitemaps.org 0.9 protocol. A reader for exactly the generator's layout comes with it, so the rendering is stated as a round trip.
- `Cookies` — `getCookie` over the cookie string of section 5.4 of RFC 6265, related to a lookup in the jar.
- `Ux` — the audience gate, idle pulse, trust ticker, progressive disclosure, FAQ accordion and exit-intent modal.

In four places the code behaves differently from what its structure suggests was meant, and the model follows the code:

- `mount` does not replace the navigation it emitted;
- dropdowns are not exclusive;
- the fallback language toggle never changes an `EN` label;
- the exit-intent modal shows again within one page load.

Each of these is stated by a lemma listed below.

## Model

| member | source | states |
|---|---|---|
| Nav.DepthPrefix | public/components/nav.js:19-26 | the base path is `""`, `"../"` or `"../../"`; it is a prefix of the written src; `"../../"` wins whenever the src starts with it, and `""` only when the src does not start with `"../"` |
| Nav.DetectBasePath | public/components/nav.js:13-29 | the first script in document order whose src mentions `components/nav.js` decides the base path; with no such script it stays `""`; the result is always one of the three depths |
| Nav.BasePathReachesRoot | public/components/nav.js:13-29 | a page zero, one or two directories deep that loads the component through the matching number of `../` gets a base path from which `index.html` resolves to the site root |
| Nav.Classify | public/components/nav.js:32-38 | `isBlogPost` holds exactly when the path contains `/blog/`, since the `/blog/posts/` test is subsumed |
| Nav.BlogPostPathClassification | public/components/nav.js:33-35 | every path containing `/blog/posts/` is a blog post; it is the blog index iff it ends with `/blog.html`, and the home page iff it ends with `/index.html` or `.com.br` |
| Nav.BlogIndexPathClassification | public/components/nav.js:34-35 | `/blog.html` sets `isBlog` but not `isBlogPost` |
| Nav.RootPathClassification | public/components/nav.js:33 | `/` is the index page |
| Nav.NavUrl | public/components/nav.js:41-44 | the conditional `basePath ? basePath + file : file` equals plain concatenation |
| Nav.BuildUrls | public/components/nav.js:41-47 | index, blog, guide, investors and logo URLs are each the base path followed by the fixed file name |
| Nav.SectionLink | public/components/nav.js:49-52 | a section link ends in `#` plus the section, preceded by nothing on the index page and by the index URL elsewhere |
| Nav.ActiveFor | public/components/nav.js:55-58 | each class suffix is `""` or `" active"`; blog is active iff blog, blog post or pricing guide; founders iff index or guide; playbook iff guide; investors iff investors page |
| Nav.BlogActiveForPath | public/components/nav.js:34-37 | in terms of the path alone, the blog link is active iff the path ends `/blog.html`, contains `/blog/` or contains `guia-precificacao` |
| Nav.FoundersLinks | public/components/nav.js:78-82 | the Founders dropdown has one section link per landing-page section, in order |
| Nav.InvestidoresLinks | public/components/nav.js:88-90 | the investors dropdown holds, in order, the investors page, its `#inv-faq` anchor and its `#inv-cta` anchor |
| Nav.SectionLinkBaseRelative | public/components/nav.js:49-52 | a section link starts with the base path, or is an in-page anchor on the index page; off the index page it always starts with the base path |
| Nav.SectionLinkReachesIndex | public/components/nav.js:13-52 | on a page zero, one or two directories deep that loads the component through the matching number of `../`, a section link resolves to that section of the site root's `index.html`; on the index page it is the bare anchor |
| Nav.Render | public/components/nav.js:64-99 | every href of the rendered navigation starts with the base path or is an in-page anchor on the index page; logo and home hrefs are `#` exactly on the index page and the index URL elsewhere; the playbook, blog, logo image and investors links are the base path plus their files; each section's class suffix is the one `ActiveFor` gives the page |
| Nav.FindById | public/components/nav.js:102 | `getElementById` finds the first element in tree order with the id, or reports that none has it |
| Nav.Mount | public/components/nav.js:102-107 | with a `main-nav` element, the navigation takes the place of that element together with its whole subtree, and everything before and after is kept; without one, the navigation is inserted first |
| Nav.MountCounts | public/components/nav.js:102-107 | a mount removes the replaced subtree, with every `nav` and every `main-nav` id in it, and adds one `nav` that has no id |
| Nav.SecondMountAddsNav | public/components/nav.js:64-107 | mounting is not idempotent: when the document holds at most one `main-nav` id, a second mount adds another navigation block, because the emitted `<nav>` has no id |
| NavUi.ToggleMenu | public/components/nav.js:111-121 | with all three elements present, every active flag flips and `aria-expanded` reports the link panel; with one missing nothing changes |
| NavUi.CloseMenu | public/components/nav.js:122-130 | every element present becomes inactive and the button reports `"false"`; missing elements stay missing |
| NavUi.ToggleMenuTwice | public/components/nav.js:111-121 | toggling twice restores any menu whose `aria-expanded` matches its link panel |
| NavUi.CloseMenuIdempotent | public/components/nav.js:122-130 | closing twice is closing once |
| NavUi.MenuInvPreserved | public/components/nav.js:111-130 | both handlers keep the three flags in agreement and `aria-expanded` truthful |
| NavUi.MenuInvReachable | public/components/nav.js:111-169 | the menu invariant holds after any sequence of navigation events |
| NavUi.ToggleDropdown | public/components/nav.js:147-154 | below 1024 px a trigger click flips its own dropdown only; at desktop width nothing changes |
| NavUi.ResizeToDesktopClosesAll | public/components/nav.js:164-169 | a resize to at least 1024 px closes the menu and every dropdown; a narrower one changes nothing |
| NavUi.DropdownsNotExclusive | public/components/nav.js:151 | on a phone, opening one dropdown and then the other leaves both open |
| NavUi.NavStep | public/components/nav.js:111-169 | the hamburger toggles the menu and the overlay closes it; a link click closes it below 1024 px and leaves it alone otherwise; a resize to at least 1024 px closes it; trigger clicks leave the menu alone, and only trigger clicks and resizes touch dropdowns; every event keeps the number of dropdowns and the menu invariant |
| NavUi.ToggleLang | public/components/nav.js:131-143 | with a page handler the call is delegated; otherwise the announced language is `pt` when the desktop label is `EN` and `en` otherwise, and each present button is labelled `EN` when the desktop label was `EN` and `PT` otherwise |
| NavUi.FallbackLabelKeepsEN | public/components/nav.js:137-141 | the fallback leaves the desktop label `EN` exactly when it was `EN`, and both labels then agree |
| NavUi.FallbackToggleIsStuck | public/components/nav.js:137-141 | after one fallback click, further clicks announce the same language and change no label |
| BlogTracking.PageLang | public/components/blog-tracking.js:17 | the language is `pt` for an empty `lang` attribute, and otherwise its first two characters |
| BlogTracking.FileStem | public/components/blog-tracking.js:25 | a found stem is a capture of `/\/([^\/]+)\.html?$/` on the path |
| BlogTracking.FileStemComplete | public/components/blog-tracking.js:25-26 | whenever the pattern matches, the stem found is its capture, which is therefore unique |
| BlogTracking.Slug | public/components/blog-tracking.js:19-27 | the slug is the non-empty meta content; otherwise the pattern's capture; otherwise the whole path |
| BlogTracking.SlugOfPageFile | public/components/blog-tracking.js:19 | without slug meta, `dir/name.html` has slug `name` |
| BlogTracking.ArticleViewed | public/components/blog-tracking.js:29-36 | the load event carries the slug, the two-letter language, and the category: the meta content when it is non-empty, and empty otherwise |
| BlogTracking.FireFromSpec | public/components/blog-tracking.js:47-55 | over ascending milestones, the recorded set gains every reached milestone, and the announced ones are exactly those reached and not fired before, in ascending order |
| BlogTracking.OnScroll | public/components/blog-tracking.js:41-56 | a page with `docHeight <= 0` fires nothing and keeps the set; the fired set only grows; every announced depth is a new milestone |
| BlogTracking.OnScrollFiresReachedOnce | public/components/blog-tracking.js:43-55 | on a scrollable page a scroll at percent p announces exactly the not-yet-fired milestones at most p, ascending, and records all reached ones |
| BlogTracking.MilestonesFireAtMostOnce | public/components/blog-tracking.js:39-56 | across any run of scrolls no milestone is announced twice, and the announced ones are exactly those newly recorded |
| BlogTracking.ClosestLinkFrom | public/components/blog-tracking.js:59-62 | the nearest ancestor-or-self whose tag is `A`, or none when the chain has no link |
| BlogTracking.ClassifyCta | public/components/blog-tracking.js:72-85 | the CTA type is a kind whose substring the href contains and no kind earlier in the source's order matches; no type iff no kind matches |
| BlogTracking.CalendlyInAnyCase | public/components/blog-tracking.js:68-74 | an href containing `calendly` in any mix of letter cases is reported as a calendly click, because the href is lower-cased before the tests |
| BlogTracking.CtaFirstMatchWins | public/components/blog-tracking.js:73-80 | a calendly link to a PDF counts as calendly |
| BlogTracking.CtaClick | public/components/blog-tracking.js:64-96 | an event is sent iff the click has a closest link whose lower-cased href classifies; it carries the slug, that type, and `bottom_cta` iff the link or an ancestor is a CTA container |
| BlogTracking.Normalize | public/components/blog-tracking.js:100-106 | a normalised URL holds neither `?` nor `#` |
| BlogTracking.NormalizeIsLongestCleanPrefix | public/components/blog-tracking.js:100-106 | normalisation keeps the longest prefix free of `?` and `#` |
| BlogTracking.NormalizeIdempotent | public/components/blog-tracking.js:118 | normalising twice is normalising once |
| BlogTracking.ChooseAlternate | public/components/blog-tracking.js:99-111 | the chosen alternate is the last one whose normalised href differs from the page's URL, with its language; none iff all alternates equal the page |
| BlogTracking.ToLang | public/components/blog-tracking.js:122 | the target language is the alternate's when set; otherwise `en` from `pt` and `pt` from any other language |
| BlogTracking.LangSwitchClick | public/components/blog-tracking.js:114-126 | a switch is announced iff an alternate URL is known and the closest link's normalised href equals it; the event carries the page language and the target language |
| Sitemap.HtmlFiles | generate-sitemap.js:20-21 | exactly the listed files whose names end in `.html` are kept |
| Sitemap.IsoDate | generate-sitemap.js:30 | the date is the longest `T`-free prefix of the timestamp: a prefix without `T`, followed by `T` when it is not the whole string |
| Sitemap.IsoDateOfTimestamp | generate-sitemap.js:30 | the date of `date + "T" + time` is `date` |
| Sitemap.PostPage | generate-sitemap.js:26-31 | a blog entry has url `/blog/` plus the file name, priority `0.8`, changefreq `monthly` and the file's date as lastmod |
| Sitemap.BlogPosts | generate-sitemap.js:13-35 | a missing directory gives no entries; otherwise one entry per `.html` file, in listing order |
| Sitemap.BlogPostsCoverHtmlFiles | generate-sitemap.js:20-32 | every blog entry comes from a `.html` file of the directory, and every such file has an entry |
| Sitemap.AllPages | generate-sitemap.js:7-39 | the entry list is the home page, then the blog index, then the blog entries; its count is two plus theirs |
| Sitemap.Render | generate-sitemap.js:41-49 | the document starts with the XML declaration and the `urlset` tag, ends with the closing tag, and its body splits on newlines into the six lines of every page, in order |
| Sitemap.LastmodTag | generate-sitemap.js:45 | the lastmod element is omitted exactly when the date is missing or empty |
| Sitemap.Between | generate-sitemap.js:44-47 | a field read between two delimiters is what sits between them |
| Sitemap.RenderIgnoresEmptyDate | generate-sitemap.js:45 | an empty date and a missing one render the same `<url>` element |
| Sitemap.ParseRender | generate-sitemap.js:41-49 | reading the rendered document gives back every page in order, with verbatim field values, for any non-empty list without line breaks in its fields |
| Sitemap.GeneratedSitemapReadsBack | generate-sitemap.js:37-52 | the generator's output reads back as the two fixed pages followed by the blog entries, and lists two plus the number of `.html` files |
| Cookies.FindCookieFirstMatch | public/components/ux-enhancements.js:28-34 | the scan returns the text after `name=` in the first piece that starts with it once its leading spaces are stripped, and null iff no piece does |
| Cookies.Lookup | public/components/ux-enhancements.js:26-35 | the jar holds a value for a name iff some cookie there has that name |
| Cookies.GetCookie | public/components/ux-enhancements.js:26-35 | null iff no `;`-piece, stripped of leading spaces, starts with `name=`; a value found holds no `;` |
| Cookies.GetCookieLookup | public/components/ux-enhancements.js:26-35 | reading the browser's cookie string gives the value of the first cookie with that name, and null when there is none |
| Cookies.NameMatchIncludesEquals | public/components/ux-enhancements.js:27-32 | a name never matches a different cookie name that it is a prefix of, or that is a prefix of it |
| Cookies.SetCookie | public/components/ux-enhancements.js:16-24 | after setting, the name reads back the new value and every other name reads as before |
| Cookies.SetCookieWellFormed | public/components/ux-enhancements.js:23 | setting a well-formed cookie keeps the jar well formed |
| Ux.GetItem | public/components/ux-enhancements.js:77 | `getItem` returns the stored value iff the key is stored |
| Ux.ShouldShowGate | public/components/ux-enhancements.js:75-89 | the gate is skipped iff the stored audience is non-empty, or the `alavanka-pref` cookie is non-empty, or the referrer mentions `alavanka.com` |
| Ux.InitGate | public/components/ux-enhancements.js:92-103 | the gate becomes visible and loses `gate-skip` when it should show; otherwise `gate-skip` is set; the stores are untouched |
| Ux.HandleChoice | public/components/ux-enhancements.js:110-135 | the choice is stored under `alavanka-audience` and in the `alavanka-pref` cookie, other keys and cookies are unchanged, the gate is hidden, and the scroll happens iff the choice is `investidor` |
| Ux.ChoiceSuppressesGate | public/components/ux-enhancements.js:75-154 | after any of the three buttons the gate is skipped on every later visit, whatever the referrer, and the cookie reads back the choice |
| Ux.CookieAloneSuppressesGate | public/components/ux-enhancements.js:75-113 | with local storage cleared, the preference cookie alone still hides the gate |
| Ux.Tick | public/components/ux-enhancements.js:234-239 | each second increments the counter, and the pulse is on from the fifth second |
| Ux.IdlePulseTracksQuietTime | public/components/ux-enhancements.js:224-252 | after any activity and timer events the counter is the number of seconds since the last activity, and the pulse is on iff that is at least five |
| Ux.InitTicker | public/components/ux-enhancements.js:257-267 | no ticker without items; otherwise the first item becomes active and every other item keeps its rendered class, so exactly one is active iff no other item was rendered active |
| Ux.Rotate | public/components/ux-enhancements.js:270-274 | a rotation advances the index by one modulo the item count and keeps exactly the current item active |
| Ux.RotateTimes | public/components/ux-enhancements.js:270-274 | the index stays within the items over any number of rotations |
| Ux.TickerAfterRotations | public/components/ux-enhancements.js:264-274 | when no item but the first is rendered active, item k mod n alone is active after k rotations |
| Ux.PreMarkedItemStaysActive | public/components/ux-enhancements.js:264-274 | an item j rendered active keeps `active` for the first j rotations, so two items are active at once |
| Ux.ClickTrigger | public/components/ux-enhancements.js:284-298 | with no target nothing changes; otherwise both expanded classes become the negation of the target's; expanding puts `Ocultar` in place of the first `Ver mais`, collapsing puts `Ver mais` in place of the first `Ocultar`, the text around it kept; a text without the label to replace is kept |
| Ux.ReplaceRoundTrip | public/components/ux-enhancements.js:293-297 | replacing the first `a` with `b` and then the first `b` with `a` restores a text that held `a` but no `b`, when `b` cannot overlap itself |
| Ux.ExpandCollapseRestores | public/components/ux-enhancements.js:290-298 | expanding and then collapsing restores the classes and the text, for a text containing `Ver mais` and not `Ocultar` |
| Ux.FirstChildItem | public/components/ux-enhancements.js:335 | the query finds the first item that is the first child of its parent, or none when no item is |
| Ux.InitFaq | public/components/ux-enhancements.js:334-351 | handlers are installed iff the `:first-child` item exists and holds a question and an answer; then that item opens; no other item changes |
| Ux.ClickQuestion | public/components/ux-enhancements.js:353-387 | clicking an open item closes it alone; clicking a closed one opens it and closes all others; `faq_open` is sent iff the item was closed |
| Ux.ClickKeepsAtMostOne | public/components/ux-enhancements.js:359-377 | a click keeps at most one item open |
| Ux.OpeningIsExclusive | public/components/ux-enhancements.js:364-377 | opening an item of any accordion leaves it the only open one |
| Ux.FaqSession | public/components/ux-enhancements.js:334-387 | clicks act only through the installed handlers, so when the `:first-child` item is missing or incomplete the accordion never changes |
| Ux.FaqExclusive | public/components/ux-enhancements.js:334-387 | from a page with every item closed, at most one item is open after initialisation and any sequence of clicks |
| Ux.InitExit | public/components/ux-enhancements.js:393-401 | handlers are installed iff the width is at least 1024, the session flag is not set and the modal exists |
| Ux.ExitStep | public/components/ux-enhancements.js:405-445 | a leave through the top shows the modal, adds the session flag to an otherwise unchanged session and sends one event; close, a click on the backdrop itself and Escape hide it; a click inside the modal changes nothing; nothing else sends or stores |
| Ux.ExitIntentRepeats | public/components/ux-enhancements.js:397-408 | within one page load a second leave through the top shows the modal again and sends a second event |
| Ux.ExitTriggeredCount | public/components/ux-enhancements.js:405-417 | the events sent in one page load are exactly the leaves through the top |
| Ux.ShownOncePerSession | public/components/ux-enhancements.js:397-408 | once the modal was shown, a later page load in the same session installs nothing |

## Left out

- Live DOM work is abstracted. This covers `outerHTML`, `insertAdjacentHTML`, `querySelectorAll`, `closest` on real nodes, and listener registration. The elements are records, and `closest` is a walk over an explicit ancestor chain.
- The literal SVG and HTML markup of the navigation (public/components/nav.js:60-99) is left out beyond the hrefs and classes it carries.
- Timers (`setTimeout`, `setInterval`, `debounce`) become explicit events. The 100 ms gate entrance delay and the 300 ms scroll delay are therefore not modelled.
- Scroll arithmetic is floating point, so `Math.round` of the percentage (public/components/blog-tracking.js:42-45) is taken as an integer input.
- The scroll progress bar (public/components/ux-enhancements.js:157-177) depends on layout measurements.
- The mobile sticky CTA (public/components/ux-enhancements.js:179-216) depends on layout measurements.
- The scroll reveals and `isInViewport` (public/components/ux-enhancements.js:54-66, 311-330) depend on layout measurements.
- `scrollIntoView`, the Tab focus trap and `announceToScreenReader` (public/components/ux-enhancements.js:447-481) are browser focus and layout behaviour. Escape is modelled, for the exit-intent modal only. On the audience gate, Escape has the same effect as hiding it.
- Performance monitoring and the `PerformanceObserver` web vitals (public/components/ux-enhancements.js:484-527) are foreign calls.
- The readiness check in `init` (public/components/ux-enhancements.js:529-558) is sequencing only.
- `gtag` is represented only by the events a handler would send.
  - The check for gtag's presence is not modelled. In particular, blog-tracking.js:12 stops the whole snippet when gtag is missing.
  - The whole `expand_content` event (public/components/ux-enhancements.js:301-306) is not modelled. The source sends it on every trigger click that has a target, and `Ux.ClickTrigger` sends nothing.
  - The FAQ question text truncated to 50 characters is not modelled.
- Cookie expiry, path and `SameSite` attributes are left out (public/components/ux-enhancements.js:17-23). The jar holds names and values only; `Cookies.SetCookie` models the store's replace-or-append rule.
- Cookie names and values must be well formed for `Cookies.GetCookieLookup`: no `;`, no `=` in the name, and no leading space. Other strings are not representable unambiguously in the cookie string.
- Ux.ClickQuestion: assumes well-formed items. The source throws midway when the clicked question has no enclosing `.faq-item`, when an item lacks its `.faq-answer` or `.faq-answer-content`, or when another open item lacks its answer; those partial updates are not modelled.
- Ux.FaqExclusive: is stated for markup that renders every item closed. With another item rendered open, initialisation leaves two items open, as `Ux.InitFaq` states.
- Ux.InitTicker: a missing `.trust-ticker` container is treated like an empty item list, which has the same effect.
- Nav.Mount: the emitted `<nav>` is one element without id. Its inner links and buttons are not listed as elements, and they hold no `nav` tag and no `main-nav` id.
- The FAQ answer's `maxHeight` style (public/components/ux-enhancements.js:347, 363, 376) is layout.
- Node's `fs`, `path`, `statSync`, `Date.toISOString`, the file write and the console report (generate-sitemap.js:1-2, 14, 23-24, 51-56) are I/O. The listing and the ISO timestamps are inputs; the document is the returned string.
- XML entity escaping is absent from the source; values are inserted verbatim, which `Sitemap.ParseRender` states by reading them back unchanged.
- `toLowerCase` is modelled on ASCII letters only.
- Sitemap.ParseRender: states the round trip only for a non-empty page list whose fields hold no line break. The generator always has at least its two fixed pages.
- Sitemap.HtmlFiles: its contract states which files are kept, not that listing order is kept. Order is carried by its definition, on which `Sitemap.BlogPosts` builds.
- Nav.Classify: its contract states only the `isBlogPost` simplification; the other five flags are the source's own `endsWith`/`indexOf` tests, stated by the path lemmas for the blog, post and root pages.
- Nav.DetectBasePath: the `src` property is a given string. The browser's URL resolution of the attribute is not modelled, and neither is a null `getAttribute('src')`, which cannot occur once `src` is non-empty.
- Behaviour one might expect but the code does not have is not modelled; the lemmas named show the gap:
  - the navigation is re-mounted idempotently (`Nav.SecondMountAddsNav`);
  - dropdowns close their siblings (`NavUi.DropdownsNotExclusive`);
  - the fallback language toggle alternates (`NavUi.FallbackToggleIsStuck`);
  - exit intent shows once per session rather than once per leave after the first load (`Ux.ExitIntentRepeats`).

=== FILE: blog_tracking.dfy ===
/** The analytics snippet for blog articles (public/components/blog-tracking.js): the article's
    language and slug, the scroll-depth milestones, the classification of clicked calls to
    action, and the detection of a switch to the alternate-language version. Analytics calls
    are modelled as the events they would send. */
module BlogTracking {
  import opened Options
  import opened Text

  /** `(document.documentElement.lang || 'pt-BR').substring(0, 2)`. */
  function PageLang(htmlLang: string): (lang: string)
    ensures htmlLang == "" ==> lang == "pt"
    ensures htmlLang != "" ==> IsPrefix(lang, htmlLang)
    ensures htmlLang != "" ==> |lang| == if |htmlLang| < 2 then |htmlLang| else 2
  {
    var l := if htmlLang != "" then htmlLang else "pt-BR";
    if |l| <= 2 then l else l[..2]
  }

  /** `rest` (the text after a `/`) is a file name the pattern `/\/([^\/]+)\.html?$/` accepts,
      with capture `cap`. */
  predicate HtmlTail(rest: string, cap: string) {
    |cap| > 0 && '/' !in cap && (rest == cap + ".html" || rest == cap + ".htm")
  }

  /** The slug pattern matches `path` and captures `cap`. */
  predicate SlugPatternMatches(path: string, cap: string) {
    exists i :: 0 <= i < |path| && path[i] == '/' && HtmlTail(path[i + 1..], cap)
  }

  /** The capture of the slug pattern: the last path segment without its `.html`/`.htm`
      extension, when that segment has one and something before it. */
  function FileStem(path: string): (stem: Option<string>)
    ensures stem.Some? ==> SlugPatternMatches(path, stem.value)
  {
    var k := LastIndexOf(path, '/');
    if k < 0 then None
    else
      var stem := NameStem(path[k + 1..]);
      if stem.Some? then
        assert 0 <= k < |path| && path[k] == '/' && HtmlTail(path[k + 1..], stem.value);
        stem
      else None
  }

  /** The stem of a file name ending in `.html` or `.htm`, with at least one character before
      the extension. */
  function NameStem(name: string): (stem: Option<string>)
    requires '/' !in name
    ensures stem.Some? ==> HtmlTail(name, stem.value)
  {
    if EndsWith(name, ".html") && |name| > 5 then
      var cap := name[..|name| - 5];
      assert name == cap + ".html";
      Some(cap)
    else if EndsWith(name, ".htm") && |name| > 4 then
      var cap := name[..|name| - 4];
      assert name == cap + ".htm";
      Some(cap)
    else None
  }

  /** A file name the pattern accepts has exactly one capture, and `NameStem` finds it. */
  lemma NameStemComplete(name: string, cap: string)
    requires '/' !in name
    requires HtmlTail(name, cap)
    ensures NameStem(name) == Some(cap)
  {
    if name == cap + ".html" {
      assert EndsWith(name, ".html");
      assert name[..|name| - 5] == cap;
    } else {
      assert name[|name| - 1] == 'm';
      assert !EndsWith(name, ".html");
      assert EndsWith(name, ".htm");
      assert name[..|name| - 4] == cap;
    }
  }

  /** A `/` followed by no other `/` is the last one. */
  lemma LastSlash(path: string, i: int)
    requires 0 <= i < |path| && path[i] == '/' && '/' !in path[i + 1..]
    ensures LastIndexOf(path, '/') == i
  {
    assert forall j :: i < j < |path| ==> path[j] == path[i + 1..][j - i - 1];
  }

  /** `FileStem` finds every match: the pattern can only match after the last `/`, and its
      capture there is unique. */
  lemma FileStemComplete(path: string, cap: string)
    requires SlugPatternMatches(path, cap)
    ensures FileStem(path) == Some(cap)
  {
    var i :| 0 <= i < |path| && path[i] == '/' && HtmlTail(path[i + 1..], cap);
    var rest := path[i + 1..];
    assert '/' !in rest by {
      assert rest == cap + ".html" || rest == cap + ".htm";
      assert '/' !in ".html" && '/' !in ".htm";
    }
    LastSlash(path, i);
    NameStemComplete(rest, cap);
  }

  /** The article slug: the `article:slug` meta content when present and non-empty, else the
      captured file name, else the whole path. */
  function Slug(slugMeta: Option<string>, path: string): (slug: string)
    ensures slugMeta.Some? && slugMeta.value != "" ==> slug == slugMeta.value
    ensures !(slugMeta.Some? && slugMeta.value != "") ==>
      (forall cap :: SlugPatternMatches(path, cap) ==> slug == cap)
    ensures !(slugMeta.Some? && slugMeta.value != "") && (forall cap :: !SlugPatternMatches(path, cap)) ==>
      slug == path
  {
    if slugMeta.Some? && slugMeta.value != "" then slugMeta.value
    else
      assert forall cap :: SlugPatternMatches(path, cap) ==> FileStem(path) == Some(cap) by {
        forall cap | SlugPatternMatches(path, cap)
          ensures FileStem(path) == Some(cap)
        {
          FileStemComplete(path, cap);
        }
      }
      match FileStem(path)
      case Some(cap) => cap
      case None => path
  }

  /** A post page `dir/name.html` gets the slug `name` when no `article:slug` meta is set,
      e.g. `/blog/posts/my-article.html` gives `my-article`. */
  lemma SlugOfPageFile(dir: string, name: string)
    requires |name| > 0 && '/' !in name
    ensures Slug(None, dir + "/" + name + ".html") == name
  {
    HtmlFileMatches(dir, name);
  }

  /** A page file `dir/cap.html` matches the slug pattern with capture `cap`. */
  lemma HtmlFileMatches(dir: string, cap: string)
    requires |cap| > 0 && '/' !in cap
    ensures SlugPatternMatches(dir + "/" + cap + ".html", cap)
  {
    var path := dir + "/" + cap + ".html";
    assert path[|dir|] == '/' && path[|dir| + 1..] == cap + ".html";
  }

  /** The `article_viewed` event sent on load. */
  datatype ArticleView = ArticleView(slug: string, category: string, language: string)

  function ArticleViewed(slugMeta: Option<string>, catMeta: Option<string>, htmlLang: string, path: string): (ev: ArticleView)
    ensures ev.category == "" <==> !(catMeta.Some? && catMeta.value != "")
    ensures catMeta.Some? && catMeta.value != "" ==> ev.category == catMeta.value
    ensures ev.slug == Slug(slugMeta, path) && ev.language == PageLang(htmlLang)
  {
    ArticleView(Slug(slugMeta, path), if catMeta.Some? && catMeta.value != "" then catMeta.value else "",
                PageLang(htmlLang))
  }

  // ---- Scroll depth ----

  const Milestones: seq<int> := [25, 50, 75, 100]

  predicate Ascending(s: seq<int>) {
    forall i, j :: 0 <= i < j < |s| ==> s[i] < s[j]
  }

  /** The `forEach` over the milestones: each one reached and not yet fired is recorded and
      announced, in list order. */
  function FireFrom(ms: seq<int>, fired: set<int>, percent: int): (set<int>, seq<int>)
    decreases |ms|
  {
    if |ms| == 0 then (fired, [])
    else if percent >= ms[0] && ms[0] !in fired then
      var (f, ev) := FireFrom(ms[1..], fired + {ms[0]}, percent);
      (f, [ms[0]] + ev)
    else
      FireFrom(ms[1..], fired, percent)
  }

  /** Over an ascending list, `FireFrom` records every milestone reached and announces, in
      ascending order, exactly those reached and not fired before. */
  lemma {:induction false} FireFromSpec(ms: seq<int>, fired: set<int>, percent: int)
    requires Ascending(ms)
    ensures FireFrom(ms, fired, percent).0 == fired + (set m | m in ms && m <= percent)
    ensures Ascending(FireFrom(ms, fired, percent).1)
    ensures forall m :: m in FireFrom(ms, fired, percent).1 <==> m in ms && m <= percent && m !in fired
    decreases |ms|
  {
    if |ms| > 0 {
      var tail := ms[1..];
      assert Ascending(tail);
      assert forall m :: m in ms <==> m == ms[0] || m in tail;
      if percent >= ms[0] && ms[0] !in fired {
        FireFromSpec(tail, fired + {ms[0]}, percent);
        var ev := FireFrom(tail, fired + {ms[0]}, percent).1;
        forall j | 0 <= j < |ev|
          ensures ms[0] < ev[j]
        {
          assert ev[j] in tail;
          var q :| 0 <= q < |tail| && tail[q] == ev[j];
          assert ms[q + 1] == ev[j];
        }
      } else {
        FireFromSpec(tail, fired, percent);
      }
    }
  }

  /** One `scroll` event with the rounded scroll percentage; a page that cannot scroll fires nothing. */
  function OnScroll(fired: set<int>, docHeight: int, percent: int): (r: (set<int>, seq<int>))
    ensures docHeight <= 0 ==> r == (fired, [])
    ensures fired <= r.0
    ensures forall m :: m in r.1 ==> m in Milestones && m !in fired
  {
    if docHeight <= 0 then (fired, [])
    else
      FireFromSpec(Milestones, fired, percent);
      FireFrom(Milestones, fired, percent)
  }

  /** A scroll on a scrollable page fires exactly the milestones reached and not fired before,
      in ascending order, and records them. */
  lemma OnScrollFiresReachedOnce(fired: set<int>, docHeight: int, percent: int)
    requires docHeight > 0
    ensures forall m :: m in OnScroll(fired, docHeight, percent).1 <==> m in Milestones && m <= percent && m !in fired
    ensures Ascending(OnScroll(fired, docHeight, percent).1)
    ensures OnScroll(fired, docHeight, percent).0 == fired + (set m | m in Milestones && m <= percent)
  {
    FireFromSpec(Milestones, fired, percent);
  }

  /** A sequence of scroll events, each given as (document height, percent). */
  function ScrollRun(fired: set<int>, scrolls: seq<(int, int)>): (set<int>, seq<int>)
    decreases |scrolls|
  {
    if |scrolls| == 0 then (fired, [])
    else
      var (f1, ev1) := OnScroll(fired, scrolls[0].0, scrolls[0].1);
      var (f2, ev2) := ScrollRun(f1, scrolls[1..]);
      (f2, ev1 + ev2)
  }

  predicate NoDuplicates(s: seq<int>) {
    forall i, j :: 0 <= i < j < |s| ==> s[i] != s[j]
  }

  /** Two duplicate-free lists with nothing in common concatenate to a duplicate-free list. */
  lemma NoDuplicatesAppend(a: seq<int>, b: seq<int>)
    requires NoDuplicates(a) && NoDuplicates(b)
    requires forall m :: m in a ==> m !in b
    ensures NoDuplicates(a + b)
  {
    var all := a + b;
    forall i, j | 0 <= i < j < |all|
      ensures all[i] != all[j]
    {
      if j < |a| {
      } else if i >= |a| {
        assert all[i] == b[i - |a|] && all[j] == b[j - |a|];
      } else {
        assert all[i] in a && all[j] in b;
      }
    }
  }

  /** Each milestone fires at most once per page: across any run of scroll events the announced
      depths are distinct milestones, exactly the ones newly recorded. */
  lemma {:induction false} MilestonesFireAtMostOnce(fired: set<int>, scrolls: seq<(int, int)>)
    ensures NoDuplicates(ScrollRun(fired, scrolls).1)
    ensures fired <= ScrollRun(fired, scrolls).0
    ensures forall m :: m in ScrollRun(fired, scrolls).1 <==> m in ScrollRun(fired, scrolls).0 && m !in fired
    ensures forall m :: m in ScrollRun(fired, scrolls).1 ==> m in Milestones
    decreases |scrolls|
  {
    if |scrolls| > 0 {
      var (f1, ev1) := OnScroll(fired, scrolls[0].0, scrolls[0].1);
      MilestonesFireAtMostOnce(f1, scrolls[1..]);
      var (f2, ev2) := ScrollRun(f1, scrolls[1..]);
      assert ScrollRun(fired, scrolls) == (f2, ev1 + ev2);
      if scrolls[0].0 > 0 {
        OnScrollFiresReachedOnce(fired, scrolls[0].0, scrolls[0].1);
      }
      assert forall m :: m in ev1 <==> m in f1 && m !in fired;
      assert NoDuplicates(ev1) by {
        if scrolls[0].0 > 0 {
          assert Ascending(ev1);
        }
      }
      NoDuplicatesAppend(ev1, ev2);
    }
  }

  // ---- Calls to action ----

  /** An element on the path from the click target to the root: `hrefAttr` is
      `getAttribute('href')`, `href` the resolved `href` property. */
  datatype Node = Node(tag: string, hrefAttr: Option<string>, href: string, classes: set<string>)

  /** `closestLink` from position `i` of the ancestor chain (chain[0] is the click target,
      chain[j + 1] the parent of chain[j]): the first element whose tag name is `A`. */
  function ClosestLinkFrom(chain: seq<Node>, i: nat): (k: Option<nat>)
    requires i <= |chain|
    ensures k.Some? ==> i <= k.value < |chain| && chain[k.value].tag == "A"
    ensures k.Some? ==> forall j :: i <= j < k.value ==> chain[j].tag != "A"
    ensures k.None? ==> forall j :: i <= j < |chain| ==> chain[j].tag != "A"
    decreases |chain| - i
  {
    if i == |chain| then None
    else if chain[i].tag == "A" then Some(i)
    else ClosestLinkFrom(chain, i + 1)
  }

  function ClosestLink(chain: seq<Node>): Option<nat>
  {
    ClosestLinkFrom(chain, 0)
  }

  datatype CtaType = Calendly | Whatsapp | Assessment | Download | Email

  /** The substrings that identify each kind of call to action. */
  function Patterns(t: CtaType): seq<string> {
    match t
    case Calendly => ["calendly"]
    case Whatsapp => ["wa.me"]
    case Assessment => ["assessment"]
    case Download => ["guia.alavanka", ".pdf"]
    case Email => ["mailto:", "email-protection"]
  }

  /** The position of each kind in the source's test order. */
  function Rank(t: CtaType): nat {
    match t
    case Calendly => 0
    case Whatsapp => 1
    case Assessment => 2
    case Download => 3
    case Email => 4
  }

  predicate MatchesKind(href: string, t: CtaType) {
    exists p :: p in Patterns(t) && Contains(href, p)
  }

  /** A kind with one pattern matches exactly when that pattern occurs. */
  lemma MatchesOnePattern(h: string, t: CtaType)
    requires |Patterns(t)| == 1
    ensures MatchesKind(h, t) <==> Contains(h, Patterns(t)[0])
  {
    assert Patterns(t)[0] in Patterns(t);
  }

  /** A kind with two patterns matches exactly when either occurs. */
  lemma MatchesTwoPatterns(h: string, t: CtaType)
    requires |Patterns(t)| == 2
    ensures MatchesKind(h, t) <==> Contains(h, Patterns(t)[0]) || Contains(h, Patterns(t)[1])
  {
    assert Patterns(t)[0] in Patterns(t) && Patterns(t)[1] in Patterns(t);
  }

  /** The `if`/`else if` chain on the lower-cased href: the first kind, in test order, one of
      whose substrings occurs; none exactly when no kind matches. */
  function ClassifyCta(lowerHref: string): (r: Option<CtaType>)
    ensures r.Some? ==> MatchesKind(lowerHref, r.value)
    ensures r.Some? ==> forall t :: Rank(t) < Rank(r.value) ==> !MatchesKind(lowerHref, t)
    ensures r.None? <==> forall t :: !MatchesKind(lowerHref, t)
  {
    MatchesOnePattern(lowerHref, Calendly);
    MatchesOnePattern(lowerHref, Whatsapp);
    MatchesOnePattern(lowerHref, Assessment);
    MatchesTwoPatterns(lowerHref, Download);
    MatchesTwoPatterns(lowerHref, Email);
    if Contains(lowerHref, "calendly") then Some(Calendly)
    else if Contains(lowerHref, "wa.me") then Some(Whatsapp)
    else if Contains(lowerHref, "assessment") then Some(Assessment)
    else if Contains(lowerHref, "guia.alavanka") || Contains(lowerHref, ".pdf") then Some(Download)
    else if Contains(lowerHref, "mailto:") || Contains(lowerHref, "email-protection") then Some(Email)
    else None
  }

  /** The href is lower-cased before classification, so a booking link whose `calendly` is
      written in any case (`CALENDLY`, `Calendly`) is reported as a calendly click. */
  lemma CalendlyInAnyCase(slug: string, chain: seq<Node>, a: string, w: string, b: string)
    requires ToLower(w) == "calendly"
    requires ClosestLink(chain).Some? && chain[ClosestLink(chain).value].hrefAttr == Some(a + w + b)
    ensures CtaClick(slug, chain).Some? && CtaClick(slug, chain).value.ctaType == Calendly
  {
    ToLowerAppend(a + w, b);
    ToLowerAppend(a, w);
    ContainsMiddle(ToLower(a), "calendly", ToLower(b));
  }

  /** A calendly booking link that is also a PDF counts as calendly: the first test wins. */
  lemma CtaFirstMatchWins()
    ensures ClassifyCta("https://calendly.com/x/agenda.pdf") == Some(Calendly)
  {
    assert "https://calendly.com/x/agenda.pdf" == "https://" + "calendly" + ".com/x/agenda.pdf";
    ContainsMiddle("https://", "calendly", ".com/x/agenda.pdf");
  }

  /** The class names that mark an end-of-article call-to-action box. */
  const CtaContainers := {"cta-box", "cta-inline", "article-cta", "cta-final-section", "author-cta"}

  /** `link.closest(...)` over the containers: the link itself or an ancestor carries one of the classes. */
  predicate InCtaContainer(chain: seq<Node>, k: nat) {
    exists j :: k <= j < |chain| && chain[j].classes * CtaContainers != {}
  }

  /** The `article_cta_click` event. */
  datatype CtaEvent = CtaEvent(slug: string, ctaType: CtaType, position: string)

  /** The document click handler for calls to action. */
  function CtaClick(slug: string, chain: seq<Node>): (ev: Option<CtaEvent>)
    ensures ev.Some? ==> ClosestLink(chain).Some?
    ensures ev.Some? ==>
      var k := ClosestLink(chain).value;
      && ev.value.slug == slug
      && Some(ev.value.ctaType) == ClassifyCta(ToLower(chain[k].hrefAttr.GetOr("")))
      && (ev.value.position == "bottom_cta" <==> InCtaContainer(chain, k))
      && (ev.value.position == "inline" <==> !InCtaContainer(chain, k))
    ensures ClosestLink(chain).Some? && ClassifyCta(ToLower(chain[ClosestLink(chain).value].hrefAttr.GetOr(""))).Some?
      ==> ev.Some?
  {
    match ClosestLink(chain)
    case None => None
    case Some(k) =>
      var href := ToLower(chain[k].hrefAttr.GetOr(""));
      match ClassifyCta(href)
      case None => None
      case Some(t) => Some(CtaEvent(slug, t, if InCtaContainer(chain, k) then "bottom_cta" else "inline"))
  }

  // ---- Language switch ----

  /** `href.split('?')[0].split('#')[0]`: the URL without query and fragment. */
  function Normalize(url: string): (r: string)
    ensures '?' !in r && '#' !in r
  {
    var a := Before(url, '?');
    BeforeIsLongestSepFreePrefix(a, '#');
    assert forall j :: 0 <= j < |Before(a, '#')| ==> Before(a, '#')[j] == a[j];
    Before(a, '#')
  }

  /** `Normalize` keeps the longest prefix free of `?` and `#`: what follows it, if anything,
      is one of them. */
  lemma NormalizeIsLongestCleanPrefix(url: string)
    ensures IsPrefix(Normalize(url), url)
    ensures |Normalize(url)| < |url| ==> url[|Normalize(url)|] in {'?', '#'}
  {
    var a := Before(url, '?');
    BeforeIsLongestSepFreePrefix(url, '?');
    BeforeIsLongestSepFreePrefix(a, '#');
    var r := Before(a, '#');
    assert url[..|r|] == url[..|a|][..|r|];
    if |r| < |a| {
      assert url[|r|] == a[|r|];
    }
  }

  /** Normalizing twice is normalizing once. */
  lemma NormalizeIdempotent(url: string)
    ensures Normalize(Normalize(url)) == Normalize(url)
  {
    var r := Normalize(url);
    SplitWithoutSep(r, '?');
    SplitWithoutSep(r, '#');
  }

  /** A `<link rel="alternate" hreflang>` element. */
  datatype Alternate = Alternate(href: string, hreflang: string)

  /** The loop over the alternates: the last one whose normalized href differs from the page's
      own normalized URL wins, giving its normalized href and language. */
  method ChooseAlternate(pageUrl: string, alts: seq<Alternate>) returns (alt: Option<Alternate>)
    ensures alt.None? <==> forall j :: 0 <= j < |alts| ==> Normalize(alts[j].href) == Normalize(pageUrl)
    ensures alt.Some? ==> exists k :: 0 <= k < |alts| && LastDiffering(pageUrl, alts, k)
                                      && alt.value == Alternate(Normalize(alts[k].href), alts[k].hreflang)
  {
    var current := Normalize(pageUrl);
    alt := None;
    ghost var chosen: int := -1;
    var i := 0;
    while i < |alts|
      invariant 0 <= i <= |alts|
      invariant -1 <= chosen < i
      invariant alt.None? <==> chosen == -1
      invariant chosen == -1 ==> forall j :: 0 <= j < i ==> Normalize(alts[j].href) == current
      invariant chosen >= 0 ==> Normalize(alts[chosen].href) != current
      invariant chosen >= 0 ==> forall j :: chosen < j < i ==> Normalize(alts[j].href) == current
      invariant chosen >= 0 ==> alt.value == Alternate(Normalize(alts[chosen].href), alts[chosen].hreflang)
    {
      var linkHref := Normalize(alts[i].href);
      if linkHref != current {
        alt := Some(Alternate(linkHref, alts[i].hreflang));
        chosen := i;
      }
      i := i + 1;
    }
    if chosen >= 0 {
      assert LastDiffering(pageUrl, alts, chosen);
    }
  }

  /** Alternate `k` differs from the page and every later one does not. */
  predicate LastDiffering(pageUrl: string, alts: seq<Alternate>, k: int) {
    && 0 <= k < |alts|
    && Normalize(alts[k].href) != Normalize(pageUrl)
    && forall j :: k < j < |alts| ==> Normalize(alts[j].href) == Normalize(pageUrl)
  }

  /** `to_lang`: the alternate's language when non-empty, otherwise the other of `pt`/`en`. */
  function ToLang(lang: string, altLang: string): (to: string)
    ensures altLang != "" ==> to == altLang
    ensures altLang == "" ==> to != lang && to in {"pt", "en"}
    ensures altLang == "" && lang != "pt" ==> to == "pt"
  {
    if altLang != "" then altLang else if lang == "pt" then "en" else "pt"
  }

  /** The `article_language_switch` event. */
  datatype LangSwitch = LangSwitch(fromLang: string, toLang: string)

  /** The click handler installed when an alternate was found (with a non-empty href): a click
      on a link to the alternate version announces the switch. */
  function LangSwitchClick(lang: string, alt: Option<Alternate>, chain: seq<Node>): (ev: Option<LangSwitch>)
    ensures ev.Some? ==> alt.Some? && alt.value.href != "" && ClosestLink(chain).Some?
    ensures ev.Some? ==> Normalize(chain[ClosestLink(chain).value].href) == alt.value.href
    ensures ev.Some? ==> ev.value == LangSwitch(lang, ToLang(lang, alt.value.hreflang))
    ensures (alt.Some? && alt.value.href != "" && ClosestLink(chain).Some?
             && Normalize(chain[ClosestLink(chain).value].href) == alt.value.href) ==> ev.Some?
  {
    if alt.None? || alt.value.href == "" then None
    else
      match ClosestLink(chain)
      case None => None
      case Some(k) =>
        if Normalize(chain[k].href) == alt.value.href then
          Some(LangSwitch(lang, ToLang(lang, alt.value.hreflang)))
        else None
  }
}

=== FILE: cookies.dfy ===
/** Cookie reading as the site's scripts do it (`getCookie` in
    public/components/ux-enhancements.js): a linear scan of the `document.cookie` string, which
    section 5.4 of RFC 6265 lays out as `name=value` pairs separated by `"; "`.

    The browser's cookie store is modelled as a list of pairs in creation order (a "jar"),
    together with the string the browser exposes for it; reading that string with `GetCookie`
    agrees with looking the name up in the jar. */
module Cookies {
  import opened Options
  import opened Text

  /** The first `;`-separated piece that, after its leading spaces are stripped, starts with
      `nameEq` (`c.indexOf(nameEQ) === 0`), and the text after that prefix. */
  function FindCookie(pieces: seq<string>, nameEq: string): Option<string>
    decreases |pieces|
  {
    if |pieces| == 0 then None
    else
      var c := TrimLeadingSpaces(pieces[0]);
      if IndexOf(c, nameEq) == 0 then Some(c[|nameEq|..])
      else FindCookie(pieces[1..], nameEq)
  }

  /** `FindCookie` gives the text after `nameEq` in the first piece that starts with it, and
      nothing exactly when no piece does. */
  lemma {:induction false} FindCookieFirstMatch(pieces: seq<string>, nameEq: string)
    ensures FindCookie(pieces, nameEq).None? <==>
      forall k :: 0 <= k < |pieces| ==> !IsPrefix(nameEq, TrimLeadingSpaces(pieces[k]))
    ensures FindCookie(pieces, nameEq).Some? ==>
      (exists k :: FirstPieceWith(pieces, nameEq, k)
                   && FindCookie(pieces, nameEq).value == TrimLeadingSpaces(pieces[k])[|nameEq|..])
    decreases |pieces|
  {
    if |pieces| > 0 {
      var c := TrimLeadingSpaces(pieces[0]);
      IndexOfZeroIsPrefix(c, nameEq);
      if IndexOf(c, nameEq) == 0 {
        assert FirstPieceWith(pieces, nameEq, 0);
      } else {
        var tail := pieces[1..];
        FindCookieFirstMatch(tail, nameEq);
        assert forall k :: 1 <= k < |pieces| ==> pieces[k] == tail[k - 1];
        var v := FindCookie(tail, nameEq);
        if v.Some? {
          var k :| FirstPieceWith(tail, nameEq, k) && v.value == TrimLeadingSpaces(tail[k])[|nameEq|..];
          assert FirstPieceWith(pieces, nameEq, k + 1);
        }
      }
    }
  }

  /** A character absent from every piece is absent from the value found. */
  lemma {:induction false} FindCookieKeepsAbsent(pieces: seq<string>, nameEq: string, c: char)
    requires forall k :: 0 <= k < |pieces| ==> c !in pieces[k]
    ensures FindCookie(pieces, nameEq).Some? ==> c !in FindCookie(pieces, nameEq).value
    decreases |pieces|
  {
    if |pieces| > 0 {
      var t := TrimLeadingSpaces(pieces[0]);
      assert forall j :: 0 <= j < |t| ==> t[j] == pieces[0][|pieces[0]| - |t| + j];
      if IndexOf(t, nameEq) != 0 {
        FindCookieKeepsAbsent(pieces[1..], nameEq, c);
      }
    }
  }

  /** Piece `k` is the first whose trimmed text starts with `nameEq`. */
  predicate FirstPieceWith(pieces: seq<string>, nameEq: string, k: int) {
    && 0 <= k < |pieces|
    && IsPrefix(nameEq, TrimLeadingSpaces(pieces[k]))
    && forall j :: 0 <= j < k ==> !IsPrefix(nameEq, TrimLeadingSpaces(pieces[j]))
  }

  /** `getCookie(name)`: the value of the first cookie named `name`, or none (`null`). */
  function GetCookie(cookie: string, name: string): (v: Option<string>)
    ensures v.None? <==>
      forall k :: 0 <= k < |Split(cookie, ';')| ==> !IsPrefix(name + "=", TrimLeadingSpaces(Split(cookie, ';')[k]))
    ensures v.Some? ==> ';' !in v.value
  {
    var pieces := Split(cookie, ';');
    FindCookieFirstMatch(pieces, name + "=");
    FindCookieKeepsAbsent(pieces, name + "=", ';');
    var r := FindCookie(pieces, name + "=");
    r
  }

  /** A cookie as the browser stores it. */
  datatype Cookie = Cookie(name: string, value: string)

  /** Names and values the string form can carry unambiguously: a non-empty name without `;`,
      `=` or a leading space, and a value without `;`. */
  predicate WellFormed(c: Cookie) {
    |c.name| > 0 && c.name[0] != ' ' && ';' !in c.name && '=' !in c.name && ';' !in c.value
  }

  predicate JarWellFormed(jar: seq<Cookie>) {
    forall k :: 0 <= k < |jar| ==> WellFormed(jar[k])
  }

  /** The value of the first cookie named `name`. */
  function Lookup(jar: seq<Cookie>, name: string): (v: Option<string>)
    ensures v.Some? <==> exists k :: 0 <= k < |jar| && jar[k].name == name
    decreases |jar|
  {
    if |jar| == 0 then None
    else if jar[0].name == name then Some(jar[0].value)
    else
      var v := Lookup(jar[1..], name);
      assert forall k :: 1 <= k < |jar| ==> jar[k] == jar[1..][k - 1];
      assert v.Some? ==> exists k :: 1 <= k < |jar| && jar[k].name == name;
      v
  }

  /** `name=value`. */
  function Pair(c: Cookie): string {
    c.name + "=" + c.value
  }

  /** One `;`-separated piece of the cookie string: a pair, after a space unless it comes first. */
  function Piece(c: Cookie, first: bool): string {
    if first then Pair(c) else " " + Pair(c)
  }

  function PiecesFrom(jar: seq<Cookie>, first: bool): (ps: seq<string>)
    ensures |ps| == |jar|
    decreases |jar|
  {
    if |jar| == 0 then [] else [Piece(jar[0], first)] + PiecesFrom(jar[1..], false)
  }

  /** `document.cookie` for a jar: the pairs joined by `"; "`. */
  function CookieString(jar: seq<Cookie>): string {
    Join(PiecesFrom(jar, true), ';')
  }

  /** With `=` in neither name, `n + "="` starts `name + "=" + value` exactly when the names agree. */
  lemma NamePrefixIffSame(n: string, name: string, value: string)
    requires '=' !in n && '=' !in name
    ensures IsPrefix(n + "=", name + "=" + value) <==> n == name
  {
    var s := name + "=" + value;
    assert s[..|name| + 1] == name + "=";
    assert s[|name|] == '=';
    assert (n + "=")[|n|] == '=';
    assert IsPrefix(n + "=", s) ==> forall i :: 0 <= i < |n| ==> n[i] == s[i];
  }

  /** Stripping the leading spaces of a piece gives back its pair. */
  lemma TrimPiece(c: Cookie, first: bool)
    requires WellFormed(c)
    ensures TrimLeadingSpaces(Piece(c, first)) == Pair(c)
  {
    assert Pair(c)[0] == c.name[0];
    assert (" " + Pair(c))[1..] == Pair(c);
  }

  lemma {:induction false} FindCookieOfPieces(jar: seq<Cookie>, first: bool, n: string)
    requires JarWellFormed(jar) && '=' !in n
    ensures FindCookie(PiecesFrom(jar, first), n + "=") == Lookup(jar, n)
    decreases |jar|
  {
    if |jar| > 0 {
      var ps := PiecesFrom(jar, first);
      assert ps[0] == Piece(jar[0], first) && ps[1..] == PiecesFrom(jar[1..], false);
      TrimPiece(jar[0], first);
      IndexOfZeroIsPrefix(Pair(jar[0]), n + "=");
      NamePrefixIffSame(n, jar[0].name, jar[0].value);
      assert n == jar[0].name ==> Pair(jar[0])[|n + "="|..] == jar[0].value;
      FindCookieOfPieces(jar[1..], false, n);
    }
  }

  lemma {:induction false} PiecesHaveNoSemicolon(jar: seq<Cookie>, first: bool)
    requires JarWellFormed(jar)
    ensures forall k :: 0 <= k < |jar| ==> ';' !in PiecesFrom(jar, first)[k]
    decreases |jar|
  {
    if |jar| > 0 {
      PiecesHaveNoSemicolon(jar[1..], false);
      var ps := PiecesFrom(jar, first);
      assert ';' !in Pair(jar[0]);
      assert forall k :: 1 <= k < |jar| ==> ps[k] == PiecesFrom(jar[1..], false)[k - 1];
    }
  }

  /** Reading the browser's cookie string agrees with the jar: `getCookie(n)` is the value of
      the first cookie named `n`, and null when there is none. */
  lemma GetCookieLookup(jar: seq<Cookie>, n: string)
    requires JarWellFormed(jar) && '=' !in n
    ensures GetCookie(CookieString(jar), n) == Lookup(jar, n)
  {
    if |jar| == 0 {
      assert CookieString(jar) == "";
      IndexOfZeroIsPrefix("", n + "=");
      assert Split("", ';') == [""] && TrimLeadingSpaces("") == "";
      assert [""][1..] == [];
    } else {
      PiecesHaveNoSemicolon(jar, true);
      SplitJoin(PiecesFrom(jar, true), ';');
      FindCookieOfPieces(jar, true, n);
    }
  }

  /** The name given to `getCookie` is matched together with its `=`, so a cookie whose name
      merely starts with it (or is a prefix of it) is not found: `a` does not match `ab=1`. */
  lemma NameMatchIncludesEquals(c: Cookie, n: string)
    requires WellFormed(c) && '=' !in n && n != c.name
    ensures GetCookie(Pair(c), n) == None
  {
    GetCookieLookup([c], n);
    assert CookieString([c]) == Pair(c);
  }

  /** Setting a cookie: an existing cookie of that name takes the new value in place; a new
      name is added at the end. */
  function SetCookie(jar: seq<Cookie>, name: string, value: string): (jar': seq<Cookie>)
    ensures Lookup(jar', name) == Some(value)
    ensures forall n :: n != name ==> Lookup(jar', n) == Lookup(jar, n)
    decreases |jar|
  {
    if |jar| == 0 then [Cookie(name, value)]
    else if jar[0].name == name then [Cookie(name, value)] + jar[1..]
    else
      var rest := SetCookie(jar[1..], name, value);
      assert ([jar[0]] + rest)[1..] == rest;
      [jar[0]] + rest
  }

  lemma {:induction false} SetCookieWellFormed(jar: seq<Cookie>, name: string, value: string)
    requires JarWellFormed(jar) && WellFormed(Cookie(name, value))
    ensures JarWellFormed(SetCookie(jar, name, value))
    decreases |jar|
  {
    if |jar| > 0 && jar[0].name != name {
      SetCookieWellFormed(jar[1..], name, value);
    }
  }
}

=== FILE: nav.dfy ===
/** The page context and markup of the unified navigation component (public/components/nav.js):
    the relative depth read from the component's own script tag, the classification of the
    current path, the links built from both, the active-section classes, and where the
    markup is mounted in the document. The markup is modelled by the hrefs and classes it
    carries, not by its text. */
module Nav {
  import opened Options
  import opened Text

  /** A `<script>` element: `src` is the resolved URL the browser reports (empty when the
      element has no src attribute), `srcAttr` the attribute as written in the page. */
  datatype Script = Script(src: string, srcAttr: string)

  const NavScript := "components/nav.js"

  const Up := "../"
  const UpUp := "../../"

  predicate LoadsNav(s: Script) {
    Contains(s.src, NavScript)
  }

  /** Script `k` is the first one in document order that loads this component. */
  predicate FirstNavScript(scripts: seq<Script>, k: int) {
    && 0 <= k < |scripts|
    && LoadsNav(scripts[k])
    && forall j :: 0 <= j < k ==> !LoadsNav(scripts[j])
  }

  /** The base path a script tag's written src implies: the longest of `""`, `"../"` and
      `"../../"` that the src starts with. */
  function DepthPrefix(srcAttr: string): (basePath: string)
    ensures basePath == "" || basePath == Up || basePath == UpUp
    ensures IsPrefix(basePath, srcAttr)
    ensures IsPrefix(UpUp, srcAttr) ==> basePath == UpUp
    ensures IsPrefix(Up, srcAttr) ==> basePath != ""
  {
    IndexOfZeroIsPrefix(srcAttr, UpUp);
    IndexOfZeroIsPrefix(srcAttr, Up);
    if IndexOf(srcAttr, UpUp) == 0 then UpUp
    else if IndexOf(srcAttr, Up) == 0 then Up
    else ""
  }

  /** The depth-detection loop: the first script whose src mentions the component decides
      the base path; without one it stays empty. */
  method DetectBasePath(scripts: seq<Script>) returns (basePath: string)
    ensures basePath == "" || basePath == Up || basePath == UpUp
    ensures (forall j :: 0 <= j < |scripts| ==> !LoadsNav(scripts[j])) ==> basePath == ""
    ensures forall k :: FirstNavScript(scripts, k) ==> basePath == DepthPrefix(scripts[k].srcAttr)
  {
    basePath := "";
    var i := 0;
    while i < |scripts|
      invariant 0 <= i <= |scripts|
      invariant forall j :: 0 <= j < i ==> !LoadsNav(scripts[j])
      invariant basePath == ""
    {
      if LoadsNav(scripts[i]) {
        basePath := DepthPrefix(scripts[i].srcAttr);
        assert forall k :: FirstNavScript(scripts, k) ==> k == i by {
          forall k | FirstNavScript(scripts, k)
            ensures k == i
          {
            assert !(k < i) && !(i < k);
          }
        }
        return;
      }
      i := i + 1;
    }
  }

  /** `"../"` written `n` times. */
  function Ups(n: nat): string {
    if n == 0 then "" else Up + Ups(n - 1)
  }

  /** Resolving a relative URL from a page directory: each leading `"../"` climbs one level
      (never above the site root); what remains is the path below the reached directory. */
  function Climb(dir: seq<string>, rel: string): (seq<string>, string)
    decreases |rel|
  {
    if IsPrefix(Up, rel) then Climb(if |dir| == 0 then [] else dir[..|dir| - 1], rel[|Up|..])
    else (dir, rel)
  }

  /** The base path chosen for a src written as `d` (at most two) leading `"../"` followed by a
      path that does not start with a dot is exactly that prefix. */
  lemma DepthPrefixOfUps(d: nat, rest: string)
    requires d <= 2
    requires |rest| > 0 && rest[0] != '.'
    ensures DepthPrefix(Ups(d) + rest) == Ups(d)
  {
    if d == 0 {
      assert Ups(0) + rest == rest;
      DepthPrefixOfPlain(rest);
    } else if d == 1 {
      assert Ups(1) == Up;
      DepthPrefixOfUp(rest);
    } else {
      UpsTwo();
      DepthPrefixOfUpUp(rest);
    }
  }

  lemma UpsTwo()
    ensures Ups(2) == UpUp
  {
    assert Ups(1) == Up + "";
    assert Ups(2) == Up + Up;
  }

  lemma DepthPrefixOfPlain(rest: string)
    requires |rest| > 0 && rest[0] != '.'
    ensures DepthPrefix(rest) == ""
  {
    NotPrefixAt(Up, rest, 0);
    NotPrefixAt(UpUp, rest, 0);
  }

  lemma DepthPrefixOfUp(rest: string)
    requires |rest| > 0 && rest[0] != '.'
    ensures DepthPrefix(Up + rest) == Up
  {
    var attr := Up + rest;
    assert IsPrefix(Up, attr) by { assert attr[..3] == Up; }
    assert attr[3] == rest[0];
    NotPrefixAt(UpUp, attr, 3);
  }

  lemma DepthPrefixOfUpUp(rest: string)
    ensures DepthPrefix(UpUp + rest) == UpUp
  {
    var attr := UpUp + rest;
    assert IsPrefix(UpUp, attr) by { assert attr[..6] == UpUp; }
  }

  /** A text that differs from `p` at a position `p` covers does not start with `p`. */
  lemma NotPrefixAt(p: string, s: string, i: nat)
    requires i < |p| && i < |s| && s[i] != p[i]
    ensures !IsPrefix(p, s)
  {
    if |p| <= |s| {
      assert s[..|p|][i] == s[i];
    }
  }

  /** From `d` directories deep, `"../"*d` followed by a path that does not itself start
      with `"../"` climbs to the site root and names that path there. */
  lemma {:induction false} UpsClimb(dir: seq<string>, rest: string)
    requires !IsPrefix(Up, rest)
    ensures Climb(dir, Ups(|dir|) + rest) == ([], rest)
    decreases |dir|
  {
    var rel := Ups(|dir|) + rest;
    if |dir| == 0 {
      assert rel == rest;
    } else {
      var parent := dir[..|dir| - 1];
      assert rel == Up + (Ups(|parent|) + rest);
      assert IsPrefix(Up, rel) && rel[|Up|..] == Ups(|parent|) + rest;
      assert Climb(dir, rel) == Climb(parent, Ups(|parent|) + rest);
      UpsClimb(parent, rest);
    }
  }

  /** From `d` directories deep, `"../"*d + "index.html"` names the site root's index. */
  lemma UpsClimbToRoot(dir: seq<string>)
    ensures Climb(dir, Ups(|dir|) + IndexFile) == ([], IndexFile)
  {
    assert IndexFile[..3][0] != Up[0];
    UpsClimb(dir, IndexFile);
  }

  /** A page `d` directories deep (d <= 2) that loads the component as `"../"*d + "components/nav.js"`
      gets a base path from which `index.html` resolves to the site root. */
  lemma BasePathReachesRoot(dir: seq<string>)
    requires |dir| <= 2
    ensures Climb(dir, DepthPrefix(Ups(|dir|) + NavScript) + IndexFile) == ([], IndexFile)
  {
    DepthPrefixOfUps(|dir|, NavScript);
    UpsClimbToRoot(dir);
  }

  /** Which page the current path names; several flags may hold at once. */
  datatype Page = Page(
    isIndex: bool,
    isBlog: bool,
    isBlogPost: bool,
    isGuia: bool,
    isPrecificacao: bool,
    isInvestidores: bool)

  const BlogDir := "/blog/"
  const BlogPostsDir := "/blog/posts/"

  /** The page flags computed from `window.location.pathname`. */
  function Classify(path: string): (page: Page)
    ensures page.isBlogPost <==> Contains(path, BlogDir)
  {
    assert Contains(path, BlogPostsDir) ==> Contains(path, BlogDir) by {
      if Contains(path, BlogPostsDir) {
        ContainsPrefixOf(path, BlogPostsDir, BlogDir);
      }
    }
    Page(
      isIndex := path == "/" || EndsWith(path, "/index.html") || EndsWith(path, ".com.br"),
      isBlog := EndsWith(path, "/blog.html"),
      isBlogPost := Contains(path, BlogPostsDir) || Contains(path, BlogDir),
      isGuia := Contains(path, "guia-fractional-cro-brasil"),
      isPrecificacao := Contains(path, "guia-precificacao"),
      isInvestidores := Contains(path, "investidores"))
  }

  /** A path under `/blog/posts/` is classified as a post. It is neither the blog index nor the
      home page unless it ends with `/blog.html`, `/index.html` or `.com.br`, which the
      source's `endsWith` tests catch first. */
  lemma BlogPostPathClassification(path: string)
    requires Contains(path, BlogPostsDir)
    ensures Classify(path).isBlogPost
    ensures !Classify(path).isBlog <==> !EndsWith(path, "/blog.html")
    ensures !Classify(path).isIndex <==> !EndsWith(path, "/index.html") && !EndsWith(path, ".com.br")
  {
    ContainsPrefixOf(path, BlogPostsDir, BlogDir);
    assert OccursAt(path, BlogPostsDir, IndexOf(path, BlogPostsDir));
    assert path != "/";
  }

  /** The blog index page is the blog, not a blog post. */
  lemma BlogIndexPathClassification()
    ensures Classify("/blog.html").isBlog
    ensures !Classify("/blog.html").isBlogPost
  {
    var path := "/blog.html";
    forall i | 0 <= i
      ensures !OccursAt(path, BlogDir, i)
    {
      if i + |BlogDir| <= |path| {
        assert path[i..i + |BlogDir|][5] == path[i + 5];
      }
    }
  }

  /** The site root is the index page. */
  lemma RootPathClassification()
    ensures Classify("/").isIndex
  {
  }

  /** The links the component builds from the base path. */
  datatype Urls = Urls(index: string, blog: string, guia: string, investidores: string, logo: string)

  const IndexFile := "index.html"
  const BlogFile := "blog.html"
  const GuiaFile := "guia-fractional-cro-brasil.html"
  const InvestidoresFile := "investidores.html"
  const LogoFile := "assets/images/brand/logo-completo-navy.png"

  /** `basePath ? basePath + file : file`, which is plain concatenation. */
  function NavUrl(basePath: string, file: string): (url: string)
    ensures url == basePath + file
  {
    if basePath != "" then basePath + file else file
  }

  function BuildUrls(basePath: string): (urls: Urls)
    ensures urls.index == basePath + IndexFile && urls.blog == basePath + BlogFile
    ensures urls.guia == basePath + GuiaFile && urls.investidores == basePath + InvestidoresFile
    ensures urls.logo == basePath + LogoFile
  {
    Urls(NavUrl(basePath, IndexFile), NavUrl(basePath, BlogFile), NavUrl(basePath, GuiaFile),
         NavUrl(basePath, InvestidoresFile), basePath + LogoFile)
  }

  /** `sectionLink(hash)`: an in-page anchor on the index page, the index URL plus the anchor elsewhere. */
  function SectionLink(page: Page, urls: Urls, hash: string): (href: string)
    ensures EndsWith(href, "#" + hash)
    ensures href[..|href| - |hash| - 1] == (if page.isIndex then "" else urls.index)
  {
    if page.isIndex then "#" + hash else urls.index + "#" + hash
  }

  /** The `" active"` suffixes appended to the class lists of the four sections. */
  datatype ActiveClasses = ActiveClasses(blog: string, guia: string, founders: string, investidores: string)

  const Active := " active"

  function ActiveFor(page: Page): (a: ActiveClasses)
    ensures a.blog in {"", Active} && a.guia in {"", Active}
    ensures a.founders in {"", Active} && a.investidores in {"", Active}
    ensures a.blog != "" <==> page.isBlog || page.isBlogPost || page.isPrecificacao
    ensures a.founders != "" <==> page.isIndex || page.isGuia
    ensures a.guia != "" <==> page.isGuia
    ensures a.investidores != "" <==> page.isInvestidores
  {
    ActiveClasses(
      if page.isBlog || page.isBlogPost || page.isPrecificacao then Active else "",
      if page.isGuia then Active else "",
      if page.isIndex || page.isGuia then Active else "",
      if page.isInvestidores then Active else "")
  }

  /** Blog highlighting in terms of the path alone: the blog link is active exactly on
      `/blog.html`, anything under `/blog/`, and the pricing guide. */
  lemma BlogActiveForPath(path: string)
    ensures ActiveFor(Classify(path)).blog == Active <==>
      EndsWith(path, "/blog.html") || Contains(path, BlogDir) || Contains(path, "guia-precificacao")
  {
  }

  /** The page context computed once per load. */
  datatype Context = Context(basePath: string, page: Page)

  /** The hrefs and classes carried by the rendered `<nav>` markup; a `...Class` field is the
      suffix appended to the element's fixed class list. */
  datatype NavView = NavView(
    logoHref: string,
    logoSrc: string,
    homeHref: string,
    foundersClass: string,
    foundersLinks: seq<string>,
    investidoresClass: string,
    investidoresLinks: seq<string>,
    playbookHref: string,
    playbookClass: string,
    blogHref: string,
    blogClass: string,
    contactHref: string)

  const FounderSections := ["problema", "solucao", "porque", "processo", "faq"]

  /** The Founders dropdown: one section link per landing-page section. */
  function FoundersLinks(page: Page, urls: Urls): (links: seq<string>)
    ensures |links| == |FounderSections|
    ensures forall i :: 0 <= i < |links| ==> links[i] == SectionLink(page, urls, FounderSections[i])
  {
    seq(|FounderSections|, i requires 0 <= i < |FounderSections| => SectionLink(page, urls, FounderSections[i]))
  }

  /** The investors dropdown: the investors page, then two anchors on it. */
  function InvestidoresLinks(investidoresUrl: string): (links: seq<string>)
    ensures |links| == 3 && links[0] == investidoresUrl
    ensures links[1] == investidoresUrl + "#inv-faq" && links[2] == investidoresUrl + "#inv-cta"
    ensures forall i :: 0 <= i < |links| ==> IsPrefix(investidoresUrl, links[i])
  {
    [investidoresUrl, investidoresUrl + "#inv-faq", investidoresUrl + "#inv-cta"]
  }

  /** The rendered navigation. Every link adapts to the page depth (see `LinksBaseRelative`),
      and the logo and home links are `#` exactly on the index page. */
  function Render(ctx: Context): (v: NavView)
    ensures LinksBaseRelative(ctx, v)
    ensures v.logoHref == "#" <==> ctx.page.isIndex
    ensures v.homeHref == "#" <==> ctx.page.isIndex
    ensures !ctx.page.isIndex ==> v.logoHref == v.homeHref == ctx.basePath + IndexFile
    ensures v.logoSrc == ctx.basePath + LogoFile && v.playbookHref == ctx.basePath + GuiaFile
    ensures v.blogHref == ctx.basePath + BlogFile
    ensures v.investidoresLinks == InvestidoresLinks(ctx.basePath + InvestidoresFile)
    ensures v.foundersLinks == FoundersLinks(ctx.page, BuildUrls(ctx.basePath))
    ensures v.contactHref == SectionLink(ctx.page, BuildUrls(ctx.basePath), "contato")
    ensures var a := ActiveFor(ctx.page);
      && v.foundersClass == a.founders && v.investidoresClass == a.investidores
      && v.playbookClass == a.guia && v.blogClass == a.blog
  {
    var b := ctx.basePath;
    var urls := BuildUrls(b);
    var active := ActiveFor(ctx.page);
    var home := if ctx.page.isIndex then "#" else urls.index;
    var v := NavView(
      logoHref := home,
      logoSrc := urls.logo,
      homeHref := home,
      foundersClass := active.founders,
      foundersLinks := FoundersLinks(ctx.page, urls),
      investidoresClass := active.investidores,
      investidoresLinks := InvestidoresLinks(urls.investidores),
      playbookHref := urls.guia,
      playbookClass := active.guia,
      blogHref := urls.blog,
      blogClass := active.blog,
      contactHref := SectionLink(ctx.page, urls, "contato"));
    assert |urls.index| > 1;
    assert IsPrefix(b, urls.index) && IsPrefix(b, urls.guia) && IsPrefix(b, urls.blog);
    SectionLinkBaseRelative(ctx, "contato");
    assert forall i :: 0 <= i < |v.foundersLinks| ==>
      BaseRelative(ctx, v.foundersLinks[i]) && (!ctx.page.isIndex ==> IsPrefix(b, v.foundersLinks[i])) by {
      forall i | 0 <= i < |v.foundersLinks|
        ensures BaseRelative(ctx, v.foundersLinks[i])
        ensures !ctx.page.isIndex ==> IsPrefix(b, v.foundersLinks[i])
      {
        SectionLinkBaseRelative(ctx, FounderSections[i]);
      }
    }
    assert forall i :: 0 <= i < |v.investidoresLinks| ==> IsPrefix(b, v.investidoresLinks[i]) by {
      forall i | 0 <= i < |v.investidoresLinks|
        ensures IsPrefix(b, v.investidoresLinks[i])
      {
        PrefixOfPrefix(b, urls.investidores, v.investidoresLinks[i]);
      }
    }
    v
  }

  /** `h` starts with the base path, or it is an in-page anchor on the index page. */
  predicate BaseRelative(ctx: Context, h: string) {
    IsPrefix(ctx.basePath, h) || (ctx.page.isIndex && IsPrefix("#", h))
  }

  /** Every href of the rendered navigation is base-relative; off the index page every href
      starts with the base path. */
  predicate LinksBaseRelative(ctx: Context, v: NavView) {
    && (forall h :: h in [v.logoHref, v.homeHref, v.playbookHref, v.blogHref, v.contactHref] ==> BaseRelative(ctx, h))
    && (forall i :: 0 <= i < |v.foundersLinks| ==> BaseRelative(ctx, v.foundersLinks[i]))
    && (forall i :: 0 <= i < |v.investidoresLinks| ==> IsPrefix(ctx.basePath, v.investidoresLinks[i]))
    && (!ctx.page.isIndex ==>
         && IsPrefix(ctx.basePath, v.logoHref) && IsPrefix(ctx.basePath, v.homeHref)
         && IsPrefix(ctx.basePath, v.contactHref)
         && forall i :: 0 <= i < |v.foundersLinks| ==> IsPrefix(ctx.basePath, v.foundersLinks[i]))
  }

  lemma SectionLinkBaseRelative(ctx: Context, hash: string)
    ensures BaseRelative(ctx, SectionLink(ctx.page, BuildUrls(ctx.basePath), hash))
    ensures !ctx.page.isIndex ==> IsPrefix(ctx.basePath, SectionLink(ctx.page, BuildUrls(ctx.basePath), hash))
  {
    var b := ctx.basePath;
    if !ctx.page.isIndex {
      assert SectionLink(ctx.page, BuildUrls(b), hash) == b + (IndexFile + "#" + hash);
    } else {
      assert SectionLink(ctx.page, BuildUrls(b), hash) == "#" + hash;
    }
  }

  /** A section link built on the base path `"../"*d` climbs from `d` directories deep to the
      section anchor of the site root's `index.html`. */
  lemma SectionLinkFromUps(dir: seq<string>, page: Page, hash: string)
    requires !page.isIndex
    ensures Climb(dir, SectionLink(page, BuildUrls(Ups(|dir|)), hash)) == ([], IndexFile + ("#" + hash))
  {
    SectionLinkOffIndex(page, Ups(|dir|), hash);
    UpsClimbToFile(dir, IndexFile, "#" + hash);
  }

  /** `"../"*d` followed by a file name that does not start with a dot climbs from `d`
      directories deep to that file at the site root. */
  lemma UpsClimbToFile(dir: seq<string>, f: string, x: string)
    requires |f| > 0 && f[0] != '.'
    ensures Climb(dir, Ups(|dir|) + (f + x)) == ([], f + x)
  {
    NoDotNoUp(f, x);
    UpsClimb(dir, f + x);
  }

  /** Text that does not start with a dot does not start with `"../"`. */
  lemma NoDotNoUp(f: string, x: string)
    requires |f| > 0 && f[0] != '.'
    ensures !IsPrefix(Up, f + x)
  {
    assert (f + x)[0] == f[0];
  }

  /** Off the index page a section link is the base path, the index file and the anchor. */
  lemma SectionLinkOffIndex(page: Page, b: string, hash: string)
    requires !page.isIndex
    ensures SectionLink(page, BuildUrls(b), hash) == b + (IndexFile + ("#" + hash))
  {
  }

  /** Off the index page, a section link written on a page `d` directories deep (d <= 2) that
      loads the component as `"../"*d + "components/nav.js"` resolves to the section anchor of
      the site root's `index.html`; on the index page it is the bare in-page anchor. */
  lemma SectionLinkReachesIndex(dir: seq<string>, page: Page, hash: string)
    requires |dir| <= 2
    ensures !page.isIndex ==>
      Climb(dir, SectionLink(page, BuildUrls(DepthPrefix(Ups(|dir|) + NavScript)), hash)) == ([], IndexFile + ("#" + hash))
    ensures page.isIndex ==> SectionLink(page, BuildUrls(DepthPrefix(Ups(|dir|) + NavScript)), hash) == "#" + hash
  {
    DepthPrefixOfUps(|dir|, NavScript);
    if !page.isIndex {
      SectionLinkFromUps(dir, page, hash);
    }
  }

  lemma PrefixOfPrefix(a: string, b: string, s: string)
    requires IsPrefix(a, b) && IsPrefix(b, s)
    ensures IsPrefix(a, s)
  {
    assert s[..|a|] == s[..|b|][..|a|];
  }

  /** An element of the document body, in tree order. The `descendants` elements of its
      subtree follow it directly; `nav` elements are navigation blocks. */
  datatype Elem = Elem(tag: string, id: Option<string>, descendants: nat)

  const MainNavId := "main-nav"

  /** The emitted `<nav>`: it carries no id, and none of its own children is a `nav` or carries
      the `main-nav` id, so they are not listed. */
  const RenderedNav := Elem("nav", None, 0)

  /** `document.getElementById(id)`: the first element in tree order with that id. */
  function FindById(doc: seq<Elem>, id: string): (k: Option<nat>)
    ensures k.Some? ==> k.value < |doc| && doc[k.value].id == Some(id)
    ensures k.Some? ==> forall j :: 0 <= j < k.value ==> doc[j].id != Some(id)
    ensures k.None? ==> forall j :: 0 <= j < |doc| ==> doc[j].id != Some(id)
  {
    if |doc| == 0 then None
    else if doc[0].id == Some(id) then Some(0)
    else
      match FindById(doc[1..], id)
      case None => None
      case Some(k) => Some(k + 1)
  }

  /** Where the subtree of element `k` ends (exclusive), cut off at the end of the document. */
  function SubtreeEnd(doc: seq<Elem>, k: nat): (e: nat)
    requires k < |doc|
    ensures k < e <= |doc|
    ensures e == |doc| || e == k + 1 + doc[k].descendants
  {
    if k + 1 + doc[k].descendants <= |doc| then k + 1 + doc[k].descendants else |doc|
  }

  /** Mounting: the navigation replaces the element with id `main-nav` and everything inside it
      (`outerHTML`) if there is one, otherwise it becomes the first child of the body. */
  function Mount(doc: seq<Elem>): (d: seq<Elem>)
    ensures FindById(doc, MainNavId).None? ==> d == [RenderedNav] + doc
    ensures FindById(doc, MainNavId).Some? ==>
      var k := FindById(doc, MainNavId).value;
      var e := SubtreeEnd(doc, k);
      && |d| == |doc| - (e - k) + 1
      && d[..k] == doc[..k] && d[k] == RenderedNav && d[k + 1..] == doc[e..]
  {
    match FindById(doc, MainNavId)
    case None => [RenderedNav] + doc
    case Some(k) =>
      var d := doc[..k] + [RenderedNav] + doc[SubtreeEnd(doc, k)..];
      assert d[k + 1..] == doc[SubtreeEnd(doc, k)..];
      d
  }

  /** The number of navigation blocks. */
  function NavCount(doc: seq<Elem>): nat {
    if |doc| == 0 then 0 else (if doc[0].tag == "nav" then 1 else 0) + NavCount(doc[1..])
  }

  /** The number of elements carrying the placeholder id. */
  function MainNavCount(doc: seq<Elem>): nat {
    if |doc| == 0 then 0 else (if doc[0].id == Some(MainNavId) then 1 else 0) + MainNavCount(doc[1..])
  }

  lemma {:induction false} CountsOfAppend(a: seq<Elem>, b: seq<Elem>)
    ensures NavCount(a + b) == NavCount(a) + NavCount(b)
    ensures MainNavCount(a + b) == MainNavCount(a) + MainNavCount(b)
    decreases |a|
  {
    if |a| > 0 {
      assert (a + b)[1..] == a[1..] + b;
      CountsOfAppend(a[1..], b);
    } else {
      assert a + b == b;
    }
  }

  lemma {:induction false} NoMainNavCountsZero(doc: seq<Elem>)
    requires forall j :: 0 <= j < |doc| ==> doc[j].id != Some(MainNavId)
    ensures MainNavCount(doc) == 0
    decreases |doc|
  {
    if |doc| > 0 {
      NoMainNavCountsZero(doc[1..]);
    }
  }

  /** A mount consumes the placeholder with every placeholder id inside it, removes the
      navigation blocks inside it, and adds one. */
  lemma MountCounts(doc: seq<Elem>)
    ensures FindById(doc, MainNavId).None? ==>
      NavCount(Mount(doc)) == NavCount(doc) + 1 && MainNavCount(Mount(doc)) == MainNavCount(doc) == 0
    ensures FindById(doc, MainNavId).Some? ==>
      var k := FindById(doc, MainNavId).value;
      var sub := doc[k..SubtreeEnd(doc, k)];
      && MainNavCount(sub) >= 1
      && NavCount(Mount(doc)) == NavCount(doc) - NavCount(sub) + 1
      && MainNavCount(Mount(doc)) == MainNavCount(doc) - MainNavCount(sub)
  {
    match FindById(doc, MainNavId)
    case None =>
      NoMainNavCountsZero(doc);
      CountsOfAppend([RenderedNav], doc);
    case Some(k) =>
      var e := SubtreeEnd(doc, k);
      var pre, sub, post := doc[..k], doc[k..e], doc[e..];
      assert doc == pre + sub + post;
      CountsOfAppend(pre + sub, post);
      CountsOfAppend(pre, sub);
      CountsOfAppend(pre + [RenderedNav], post);
      CountsOfAppend(pre, [RenderedNav]);
      assert sub[0] == doc[k];
  }

  /** A document without placeholder ids has no element `getElementById` could find. */
  lemma {:induction false} NoPlaceholderNotFound(d: seq<Elem>)
    requires MainNavCount(d) == 0
    ensures forall j :: 0 <= j < |d| ==> d[j].id != Some(MainNavId)
    ensures FindById(d, MainNavId).None?
    decreases |d|
  {
    if |d| > 0 {
      NoPlaceholderNotFound(d[1..]);
      assert forall j :: 1 <= j < |d| ==> d[j] == d[1..][j - 1];
    }
  }

  /** Mounting is not idempotent: the emitted `<nav>` has no `main-nav` id, so on a page with
      at most one placeholder a second mount prepends a second navigation block. */
  lemma SecondMountAddsNav(doc: seq<Elem>)
    requires MainNavCount(doc) <= 1
    ensures NavCount(Mount(Mount(doc))) == NavCount(Mount(doc)) + 1
  {
    MountCounts(doc);
    var d := Mount(doc);
    assert MainNavCount(d) == 0 by {
      if FindById(doc, MainNavId).Some? {
        var k := FindById(doc, MainNavId).value;
        assert MainNavCount(doc[k..SubtreeEnd(doc, k)]) >= 1;
      }
    }
    NoPlaceholderNotFound(d);
    MountCounts(d);
  }
}

=== FILE: nav_ui.dfy ===
/** The interactive half of public/components/nav.js: the mobile menu (hamburger, link panel and
    overlay toggled together), the dropdown groups, the breakpoint handlers and the fallback
    language toggle. Each DOM element the handlers look up may be missing; a missing element is
    `None` and its handler skips it. */
module NavUi {
  import opened Options

  /** The hamburger button: its `active` class and its `aria-expanded` attribute text. */
  datatype Hamburger = Hamburger(active: bool, ariaExpanded: string)

  /** The three elements the menu handlers look up by id, with the `active` class of each. */
  datatype Menu = Menu(hamburger: Option<Hamburger>, navLinks: Option<bool>, overlay: Option<bool>)

  /** `setAttribute('aria-expanded', b)` stores the boolean's string form. */
  function AttrText(b: bool): string {
    if b then "true" else "false"
  }

  /** The menu as rendered: closed, with `aria-expanded="false"`. */
  const InitialMenu := Menu(Some(Hamburger(false, "false")), Some(false), Some(false))

  predicate Complete(m: Menu) {
    m.hamburger.Some? && m.navLinks.Some? && m.overlay.Some?
  }

  /** The three active flags agree. */
  predicate InSync(m: Menu) {
    Complete(m) ==> m.hamburger.value.active == m.navLinks.value == m.overlay.value
  }

  /** `aria-expanded` tells the truth about the link panel. */
  predicate AriaConsistent(m: Menu) {
    Complete(m) ==> m.hamburger.value.ariaExpanded == AttrText(m.navLinks.value)
  }

  /** Menu is open or closed: all three flags agree and the button reports it. */
  predicate MenuInv(m: Menu) {
    InSync(m) && AriaConsistent(m)
  }

  /** `toggleMenu`: with all three elements present, flip all three flags and report the link
      panel's new state in `aria-expanded`; otherwise do nothing. */
  function ToggleMenu(m: Menu): (m': Menu)
    ensures !Complete(m) ==> m' == m
    ensures Complete(m) ==> Complete(m')
    ensures Complete(m) ==>
      && m'.hamburger.value.active == !m.hamburger.value.active
      && m'.navLinks.value == !m.navLinks.value
      && m'.overlay.value == !m.overlay.value
    ensures AriaConsistent(m')
  {
    if Complete(m) then
      var links := !m.navLinks.value;
      Menu(Some(Hamburger(!m.hamburger.value.active, AttrText(links))), Some(links), Some(!m.overlay.value))
    else m
  }

  /** `closeMenu`: every element present loses `active`; the button reports `"false"`. */
  function CloseMenu(m: Menu): (m': Menu)
    ensures m'.hamburger.Some? == m.hamburger.Some? && m'.navLinks.Some? == m.navLinks.Some?
    ensures m'.overlay.Some? == m.overlay.Some?
    ensures m'.hamburger.Some? ==> !m'.hamburger.value.active && m'.hamburger.value.ariaExpanded == "false"
    ensures m'.navLinks.Some? ==> !m'.navLinks.value
    ensures m'.overlay.Some? ==> !m'.overlay.value
  {
    Menu(
      if m.hamburger.Some? then Some(Hamburger(false, "false")) else None,
      if m.navLinks.Some? then Some(false) else None,
      if m.overlay.Some? then Some(false) else None)
  }

  /** Toggling twice restores any menu whose `aria-expanded` matches its link panel. */
  lemma ToggleMenuTwice(m: Menu)
    requires AriaConsistent(m)
    ensures ToggleMenu(ToggleMenu(m)) == m
  {
    if Complete(m) {
      assert m.hamburger == Some(Hamburger(m.hamburger.value.active, m.hamburger.value.ariaExpanded));
    }
  }

  /** Closing is idempotent. */
  lemma CloseMenuIdempotent(m: Menu)
    ensures CloseMenu(CloseMenu(m)) == CloseMenu(m)
  {
  }

  /** Both handlers keep the menu in one of its two states. */
  lemma MenuInvPreserved(m: Menu)
    requires MenuInv(m)
    ensures MenuInv(ToggleMenu(m))
    ensures MenuInv(CloseMenu(m))
  {
  }

  const DesktopWidth := 1024

  /** The navigation's interactive state: the menu and the `open` class of each `.nav-dropdown`. */
  datatype NavState = NavState(menu: Menu, dropdownOpen: seq<bool>)

  /** The rendered navigation: the closed menu and its two dropdown groups, both closed. */
  const InitialNav := NavState(InitialMenu, [false, false])

  /** The events the component listens to. */
  datatype NavEvent =
    | HamburgerClick
    | OverlayClick
    | TriggerClick(dropdown: nat, width: int)
    | LinkClick(width: int)
    | Resize(width: int)

  /** A click on a dropdown trigger below the breakpoint toggles `open` on that dropdown alone;
      siblings are not closed. */
  function ToggleDropdown(open: seq<bool>, k: nat, width: int): (open': seq<bool>)
    ensures |open'| == |open|
    ensures width < DesktopWidth && k < |open| ==> open'[k] == !open[k]
    ensures forall j :: 0 <= j < |open| && (j != k || width >= DesktopWidth) ==> open'[j] == open[j]
  {
    if width < DesktopWidth && k < |open| then open[k := !open[k]] else open
  }

  /** One event: the hamburger toggles the menu, the overlay closes it, a trigger toggles its
      dropdown, a link click closes the menu below the breakpoint, and a resize to desktop
      width closes the menu and every dropdown. */
  function NavStep(s: NavState, e: NavEvent): (s': NavState)
    ensures |s'.dropdownOpen| == |s.dropdownOpen|
    ensures MenuInv(s.menu) ==> MenuInv(s'.menu)
    ensures !e.TriggerClick? && !e.Resize? ==> s'.dropdownOpen == s.dropdownOpen
    ensures e.TriggerClick? ==> s'.menu == s.menu
    ensures e.HamburgerClick? ==> s'.menu == ToggleMenu(s.menu)
    ensures e.OverlayClick? ==> s'.menu == CloseMenu(s.menu)
    ensures e.LinkClick? ==> s'.menu == if e.width < DesktopWidth then CloseMenu(s.menu) else s.menu
    ensures e.Resize? ==> s'.menu == if e.width >= DesktopWidth then CloseMenu(s.menu) else s.menu
  {
    match e
    case HamburgerClick => s.(menu := ToggleMenu(s.menu))
    case OverlayClick => s.(menu := CloseMenu(s.menu))
    case TriggerClick(k, w) => s.(dropdownOpen := ToggleDropdown(s.dropdownOpen, k, w))
    case LinkClick(w) => if w < DesktopWidth then s.(menu := CloseMenu(s.menu)) else s
    case Resize(w) =>
      if w >= DesktopWidth then NavState(CloseMenu(s.menu), seq(|s.dropdownOpen|, _ => false)) else s
  }

  /** A resize to desktop width closes the menu and every dropdown; a narrower one changes nothing. */
  lemma ResizeToDesktopClosesAll(s: NavState, w: int)
    ensures w >= DesktopWidth ==>
      && NavStep(s, Resize(w)).menu == CloseMenu(s.menu)
      && |NavStep(s, Resize(w)).dropdownOpen| == |s.dropdownOpen|
      && forall j :: 0 <= j < |s.dropdownOpen| ==> !NavStep(s, Resize(w)).dropdownOpen[j]
    ensures w < DesktopWidth ==> NavStep(s, Resize(w)) == s
  {
  }

  /** The menu invariant holds in every state reachable from the rendered navigation. */
  lemma {:induction false} MenuInvReachable(s: NavState, events: seq<NavEvent>)
    requires MenuInv(s.menu)
    ensures MenuInv(Run(s, events).menu)
    decreases |events|
  {
    if |events| > 0 {
      var s1 := NavStep(s, events[0]);
      MenuInvPreserved(s.menu);
      MenuInvReachable(s1, events[1..]);
    }
  }

  function Run(s: NavState, events: seq<NavEvent>): NavState
    decreases |events|
  {
    if |events| == 0 then s else Run(NavStep(s, events[0]), events[1..])
  }

  /** Dropdowns are not mutually exclusive: on a phone, opening the first group and then the
      second leaves both open. */
  lemma DropdownsNotExclusive()
    ensures Run(InitialNav, [TriggerClick(0, 375), TriggerClick(1, 375)]).dropdownOpen == [true, true]
  {
    var s1 := NavStep(InitialNav, TriggerClick(0, 375));
    assert s1.dropdownOpen == [true, false];
    var s2 := NavStep(s1, TriggerClick(1, 375));
    assert s2.dropdownOpen == [true, true];
    assert Run(s1, [TriggerClick(1, 375)]) == Run(s2, []);
  }

  /** The two language buttons' labels (desktop `langToggle`, mobile `langToggleMobile`). */
  datatype LangButtons = LangButtons(desktop: Option<string>, mobile: Option<string>)

  /** What `toggleLang` does besides relabelling. */
  datatype LangOutcome = Delegated | LangChange(lang: string)

  /** `toggleLang`: hand over to the page's own `toggleLang` when it defines one; otherwise read
      the current language from the desktop label, flip it, relabel both buttons and announce
      the new language. */
  function ToggleLang(pageHandler: bool, b: LangButtons): (r: (LangButtons, LangOutcome))
    ensures pageHandler ==> r == (b, Delegated)
    ensures !pageHandler ==> r.1 == LangChange(if b.desktop == Some("EN") then "pt" else "en")
    ensures !pageHandler ==> r.0.desktop.Some? == b.desktop.Some? && r.0.mobile.Some? == b.mobile.Some?
    ensures !pageHandler ==>
      var caption := if b.desktop == Some("EN") then "EN" else "PT";
      && (b.desktop.Some? ==> r.0.desktop == Some(caption))
      && (b.mobile.Some? ==> r.0.mobile == Some(caption))
  {
    if pageHandler then (b, Delegated)
    else
      var currentLang := if b.desktop.Some? && b.desktop.value == "EN" then "en" else "pt";
      var newLang := if currentLang == "pt" then "en" else "pt";
      var caption := if newLang == "pt" then "EN" else "PT";
      (LangButtons(if b.desktop.Some? then Some(caption) else None, if b.mobile.Some? then Some(caption) else None),
       LangChange(newLang))
  }

  /** The fallback never moves a label from `EN`: the final desktop label is `EN` exactly when
      it was `EN` before, and both labels then read the same. */
  lemma FallbackLabelKeepsEN(b: LangButtons)
    requires b.desktop.Some?
    ensures ToggleLang(false, b).0.desktop == Some("EN") <==> b.desktop == Some("EN")
    ensures ToggleLang(false, b).0.desktop == Some("EN") ==> ToggleLang(false, b).1 == LangChange("pt")
    ensures b.mobile.Some? ==> ToggleLang(false, b).0.mobile == ToggleLang(false, b).0.desktop
  {
  }

  /** The fallback is a fixed point after one use: a second click announces the same language
      and changes no label, so the fallback never switches back and forth. */
  lemma FallbackToggleIsStuck(b: LangButtons)
    ensures ToggleLang(false, ToggleLang(false, b).0) == ToggleLang(false, b)
  {
  }
}

=== FILE: options.dfy ===
/** An optional value: `None` stands for the source's `null`, a missing element or an unset
    variable. */
module Options {

  datatype Option<+T> = None | Some(value: T) {

    /** The value, or `default` when there is none (`x || default` on a nullable string). */
    function GetOr(default: T): T {
      if Some? then value else default
    }
  }
}

=== FILE: sitemap.dfy ===
/** The sitemap generator (generate-sitemap.js): two fixed pages plus one entry per `.html`
    file of the blog directory, rendered into the `urlset` document of the sitemaps.org 0.9
    schema. The directory listing and the files' modification times are parameters; writing
    `sitemap.xml` and the console summary are left out.

    The document is plain text built by templates, so it is paired here with a reader for
    exactly that layout: reading a rendered sitemap gives back its pages. */
module Sitemap {
  import opened Options
  import opened Text

  const BaseUrl := "https://www.alavanka.com.br"

  /** One sitemap entry; `lastmod` is absent for the fixed pages. */
  datatype Page = Page(url: string, priority: string, changefreq: string, lastmod: Option<string>)

  /** The two fixed pages: the home page and the blog index. */
  const HomePage := Page("/", "1.0", "weekly", None)
  const BlogIndexPage := Page("/blog.html", "0.9", "weekly", None)

  /** A directory entry of the blog folder with its modification time as `toISOString` writes it. */
  datatype BlogFile = BlogFile(name: string, mtimeIso: string)

  /** The `.filter(file => file.endsWith('.html'))` step, in listing order. */
  function HtmlFiles(files: seq<BlogFile>): (r: seq<BlogFile>)
    ensures |r| <= |files|
    ensures forall f :: f in r <==> f in files && EndsWith(f.name, ".html")
    decreases |files|
  {
    if |files| == 0 then []
    else if EndsWith(files[0].name, ".html") then [files[0]] + HtmlFiles(files[1..])
    else HtmlFiles(files[1..])
  }

  /** The date part of an ISO timestamp: `iso.split('T')[0]`. */
  function IsoDate(iso: string): (date: string)
    ensures 'T' !in date
    ensures IsPrefix(date, iso)
    ensures |date| < |iso| ==> iso[|date|] == 'T'
  {
    BeforeIsLongestSepFreePrefix(iso, 'T');
    Before(iso, 'T')
  }

  /** A timestamp `date + "T" + time` has the date `date`. */
  lemma IsoDateOfTimestamp(date: string, time: string)
    requires 'T' !in date
    ensures IsoDate(date + "T" + time) == date
  {
    BeforeOfPiece(date, 'T', time);
  }

  /** The entry of one blog file. */
  function PostPage(f: BlogFile): (p: Page)
    ensures p.url == "/blog/" + f.name
    ensures p.priority == "0.8" && p.changefreq == "monthly"
    ensures p.lastmod == Some(IsoDate(f.mtimeIso))
  {
    Page("/blog/" + f.name, "0.8", "monthly", Some(IsoDate(f.mtimeIso)))
  }

  /** `getBlogPosts`: no entries when the directory does not exist (`listing` is `None`),
      otherwise one entry per `.html` file, in listing order. */
  function BlogPosts(listing: Option<seq<BlogFile>>): (posts: seq<Page>)
    ensures listing.None? ==> posts == []
    ensures listing.Some? ==> |posts| == |HtmlFiles(listing.value)|
    ensures listing.Some? ==> forall k :: 0 <= k < |posts| ==> posts[k] == PostPage(HtmlFiles(listing.value)[k])
  {
    match listing
    case None => []
    case Some(files) =>
      var html := HtmlFiles(files);
      seq(|html|, k requires 0 <= k < |html| => PostPage(html[k]))
  }

  /** Every blog entry names a `.html` file of the directory, and every such file has one. */
  lemma BlogPostsCoverHtmlFiles(files: seq<BlogFile>)
    ensures forall p :: p in BlogPosts(Some(files)) ==>
      exists f :: f in files && EndsWith(f.name, ".html") && p == PostPage(f)
    ensures forall f :: f in files && EndsWith(f.name, ".html") ==> PostPage(f) in BlogPosts(Some(files))
  {
    var html := HtmlFiles(files);
    var posts := BlogPosts(Some(files));
    forall p | p in posts
      ensures exists f :: f in files && EndsWith(f.name, ".html") && p == PostPage(f)
    {
      var k :| 0 <= k < |posts| && posts[k] == p;
      assert html[k] in html;
    }
    forall f | f in files && EndsWith(f.name, ".html")
      ensures PostPage(f) in posts
    {
      var k :| 0 <= k < |html| && html[k] == f;
      assert posts[k] == PostPage(f);
    }
  }

  /** `[...staticPages, ...getBlogPosts()]`: the count the generator reports is two plus the
      number of `.html` files. */
  function AllPages(listing: Option<seq<BlogFile>>): (pages: seq<Page>)
    ensures |pages| == 2 + |BlogPosts(listing)|
    ensures pages[0] == HomePage && pages[1] == BlogIndexPage
    ensures pages[2..] == BlogPosts(listing)
  {
    var posts := BlogPosts(listing);
    [HomePage, BlogIndexPage] + posts
  }

  // ---- Rendering ----

  /** `${page.lastmod ? `<lastmod>...</lastmod>` : ''}`: nothing for a missing or empty date. */
  function LastmodTag(lastmod: Option<string>): (tag: string)
    ensures tag == "" <==> lastmod.None? || lastmod.value == ""
  {
    match lastmod
    case Some(d) => if d != "" then "<lastmod>" + d + "</lastmod>" else ""
    case None => ""
  }

  /** The six lines of the `<url>` element of one page, as the template writes them (fields
      are inserted verbatim, without XML escaping). */
  function PageLines(p: Page): seq<string>
  {
    ["  <url>", "    <loc>" + BaseUrl + p.url + "</loc>", "    " + LastmodTag(p.lastmod),
     "    <changefreq>" + p.changefreq + "</changefreq>", "    <priority>" + p.priority + "</priority>",
     "  </url>"]
  }

  /** The element: its lines joined by newlines. */
  function UrlBlock(p: Page): string
  {
    Join(PageLines(p), '\n')
  }

  const Header := "<?xml version=\"1.0\" encoding=\"UTF-8\"?>\n<urlset xmlns=\"http://www.sitemaps.org/schemas/sitemap/0.9\">\n"
  const Footer := "\n</urlset>"

  function Blocks(pages: seq<Page>): (blocks: seq<string>)
    ensures |blocks| == |pages|
    ensures forall k :: 0 <= k < |pages| ==> blocks[k] == UrlBlock(pages[k])
  {
    seq(|pages|, k requires 0 <= k < |pages| => UrlBlock(pages[k]))
  }

  /** The generated document: the XML declaration, the `urlset` opening tag, the page blocks
      joined by newlines and the closing tag. */
  function Render(pages: seq<Page>): (doc: string)
    ensures |Header| + |Footer| <= |doc| && IsPrefix(Header, doc) && EndsWith(doc, Footer)
    ensures |pages| >= 1 && (forall k :: 0 <= k < |pages| ==> SingleLine(pages[k])) ==>
      Split(doc[|Header|..|doc| - |Footer|], '\n') == AllLines(pages)
  {
    var body := Join(Blocks(pages), '\n');
    var doc := Header + body + Footer;
    assert doc[..|Header|] == Header && doc[|doc| - |Footer|..] == Footer;
    assert doc[|Header|..|doc| - |Footer|] == body;
    if |pages| >= 1 && (forall k :: 0 <= k < |pages| ==> SingleLine(pages[k])) then
      BlocksAreLines(pages);
      AllLinesSingle(pages);
      SplitJoin(AllLines(pages), '\n');
      doc
    else doc
  }

  // ---- Reading the layout back ----


  /** All the lines of all the blocks, in order. */
  function AllLines(pages: seq<Page>): seq<string>
    decreases |pages|
  {
    if |pages| == 0 then [] else PageLines(pages[0]) + AllLines(pages[1..])
  }

  /** `line` is `open + x + close`: the text `x` between two fixed delimiters. */
  function Between(line: string, open: string, close: string): (x: Option<string>)
    ensures x.Some? ==> line == open + x.value + close
  {
    if |open| + |close| <= |line| && IsPrefix(open, line) && EndsWith(line, close) then
      var x := line[|open|..|line| - |close|];
      assert line == line[..|open|] + x + line[|line| - |close|..];
      Some(x)
    else None
  }

  lemma BetweenOf(open: string, x: string, close: string)
    ensures Between(open + x + close, open, close) == Some(x)
  {
    var line := open + x + close;
    assert line[..|open|] == open && line[|line| - |close|..] == close;
    assert line[|open|..|line| - |close|] == x;
  }

  /** The lastmod line: blank when the page has no date, else one `<lastmod>` element. */
  function ParseLastmod(line: string): Option<Option<string>>
  {
    if line == "    " then Some(None)
    else
      match Between(line, "    <lastmod>", "</lastmod>")
      case None => None
      case Some(d) => Some(Some(d))
  }

  /** Reads the six lines of one block back into a page. */
  function ParseLines(ls: seq<string>): Option<Page>
    requires |ls| == 6
  {
    if ls[0] != "  <url>" || ls[5] != "  </url>" then None
    else
      var url := Between(ls[1], "    <loc>" + BaseUrl, "</loc>");
      var lastmod := ParseLastmod(ls[2]);
      var changefreq := Between(ls[3], "    <changefreq>", "</changefreq>");
      var priority := Between(ls[4], "    <priority>", "</priority>");
      if url.None? || lastmod.None? || changefreq.None? || priority.None? then None
      else Some(Page(url.value, priority.value, changefreq.value, lastmod.value))
  }

  /** Reads consecutive blocks. */
  function ParseGroups(lines: seq<string>): Option<seq<Page>>
    decreases |lines|
  {
    if |lines| == 0 then Some([])
    else if |lines| < 6 then None
    else
      match ParseLines(lines[..6])
      case None => None
      case Some(p) =>
        (match ParseGroups(lines[6..])
         case None => None
         case Some(rest) => Some([p] + rest))
  }

  /** Reads a whole document in the generator's layout. */
  function ParseSitemap(doc: string): Option<seq<Page>>
  {
    if |Header| + |Footer| <= |doc| && IsPrefix(Header, doc) && EndsWith(doc, Footer) then
      ParseGroups(Split(doc[|Header|..|doc| - |Footer|], '\n'))
    else None
  }

  /** A page whose fields hold no line break. */
  predicate SingleLine(p: Page) {
    '\n' !in p.url && '\n' !in p.priority && '\n' !in p.changefreq
    && (p.lastmod.Some? ==> '\n' !in p.lastmod.value)
  }

  /** What a page looks like after a render and a read: an empty date reads as no date. */
  function Normal(p: Page): Page {
    if p.lastmod == Some("") then p.(lastmod := None) else p
  }

  /** An empty date and a missing one render alike. */
  lemma RenderIgnoresEmptyDate(p: Page)
    ensures UrlBlock(Normal(p)) == UrlBlock(p)
  {
  }

  function NormalAll(pages: seq<Page>): (r: seq<Page>)
    ensures |r| == |pages|
    ensures forall k :: 0 <= k < |pages| ==> r[k] == Normal(pages[k])
  {
    seq(|pages|, k requires 0 <= k < |pages| => Normal(pages[k]))
  }

  lemma ParseLastmodOf(lastmod: Option<string>)
    requires lastmod.Some? ==> '\n' !in lastmod.value
    ensures ParseLastmod("    " + LastmodTag(lastmod)) == Some(if lastmod == Some("") then None else lastmod)
  {
    if lastmod.Some? && lastmod.value != "" {
      var d := lastmod.value;
      assert "    " + LastmodTag(lastmod) == "    <lastmod>" + d + "</lastmod>";
      BetweenOf("    <lastmod>", d, "</lastmod>");
    }
  }

  /** Each block reads back as its page. */
  lemma ParseLinesOfPage(p: Page)
    requires SingleLine(p)
    ensures ParseLines(PageLines(p)) == Some(Normal(p))
  {
    var ls := PageLines(p);
    BetweenOf("    <loc>" + BaseUrl, p.url, "</loc>");
    assert ls[1] == "    <loc>" + BaseUrl + p.url + "</loc>";
    ParseLastmodOf(p.lastmod);
    BetweenOf("    <changefreq>", p.changefreq, "</changefreq>");
    BetweenOf("    <priority>", p.priority, "</priority>");
  }

  /** The lines of a non-empty list of pages: the first page's six, then the rest's. */
  lemma AllLinesCons(pages: seq<Page>)
    requires |pages| > 0
    ensures |AllLines(pages)| >= 6
    ensures AllLines(pages)[..6] == PageLines(pages[0])
    ensures AllLines(pages)[6..] == AllLines(pages[1..])
  {
  }

  lemma {:induction false} ParseGroupsOfPages(pages: seq<Page>)
    requires forall k :: 0 <= k < |pages| ==> SingleLine(pages[k])
    ensures ParseGroups(AllLines(pages)) == Some(NormalAll(pages))
    decreases |pages|
  {
    if |pages| > 0 {
      var lines := AllLines(pages);
      AllLinesCons(pages);
      ParseLinesOfPage(pages[0]);
      ParseGroupsOfPages(pages[1..]);
      assert ParseGroups(lines) == Some([Normal(pages[0])] + NormalAll(pages[1..]));
      assert NormalAll(pages) == [Normal(pages[0])] + NormalAll(pages[1..]);
    }
  }

  /** `Join` over a concatenation of two non-empty lists puts one separator between the halves. */
  lemma {:induction false} JoinAppend(a: seq<string>, b: seq<string>, sep: char)
    requires |a| >= 1 && |b| >= 1
    ensures Join(a + b, sep) == Join(a, sep) + [sep] + Join(b, sep)
    decreases |a|
  {
    if |a| == 1 {
      JoinCons(a[0], b, sep);
      assert [a[0]] + b == a + b;
    } else {
      JoinAppend(a[1..], b, sep);
      assert (a + b)[1..] == a[1..] + b;
      JoinCons(a[0], a[1..] + b, sep);
      JoinCons(a[0], a[1..], sep);
      assert [a[0]] + (a[1..] + b) == a + b;
      assert [a[0]] + a[1..] == a;
    }
  }

  /** Joining the blocks is joining all their lines. */
  lemma {:induction false} BlocksAreLines(pages: seq<Page>)
    requires |pages| >= 1
    ensures Join(Blocks(pages), '\n') == Join(AllLines(pages), '\n')
    decreases |pages|
  {
    if |pages| == 1 {
      assert AllLines(pages[1..]) == [];
      assert AllLines(pages) == PageLines(pages[0]);
      assert Blocks(pages) == [UrlBlock(pages[0])];
    } else {
      BlocksAreLines(pages[1..]);
      assert Blocks(pages)[1..] == Blocks(pages[1..]);
      JoinCons(UrlBlock(pages[0]), Blocks(pages[1..]), '\n');
      assert [UrlBlock(pages[0])] + Blocks(pages[1..]) == Blocks(pages);
      JoinAppend(PageLines(pages[0]), AllLines(pages[1..]), '\n');
      assert |AllLines(pages[1..])| >= 1;
    }
  }

  /** No line of a single-line page's block holds a line break. */
  lemma PageLinesSingle(p: Page)
    requires SingleLine(p)
    ensures forall k :: 0 <= k < |PageLines(p)| ==> '\n' !in PageLines(p)[k]
  {
    assert '\n' !in LastmodTag(p.lastmod);
  }

  /** No line of the blocks of single-line pages holds a line break. */
  lemma {:induction false} AllLinesSingle(pages: seq<Page>)
    requires forall k :: 0 <= k < |pages| ==> SingleLine(pages[k])
    ensures forall k :: 0 <= k < |AllLines(pages)| ==> '\n' !in AllLines(pages)[k]
    decreases |pages|
  {
    if |pages| > 0 {
      AllLinesSingle(pages[1..]);
      PageLinesSingle(pages[0]);
      var lines := AllLines(pages);
      assert lines == PageLines(pages[0]) + AllLines(pages[1..]);
      forall k | 0 <= k < |lines|
        ensures '\n' !in lines[k]
      {
        if k >= 6 {
          assert lines[k] == AllLines(pages[1..])[k - 6];
        }
      }
    }
  }

  /** Reading a rendered sitemap gives back its pages, in order (with empty dates read as
      missing), for any non-empty list of pages without line breaks in their fields. */
  lemma ParseRender(pages: seq<Page>)
    requires |pages| >= 1
    requires forall k :: 0 <= k < |pages| ==> SingleLine(pages[k])
    ensures ParseSitemap(Render(pages)) == Some(NormalAll(pages))
  {
    ParseGroupsOfPages(pages);
  }

  lemma StaticPagesSingleLine()
    ensures SingleLine(HomePage) && SingleLine(BlogIndexPage)
  {
  }

  lemma PostPageSingleLine(f: BlogFile)
    requires '\n' !in f.name && '\n' !in f.mtimeIso
    ensures SingleLine(PostPage(f))
  {
    var d := IsoDate(f.mtimeIso);
    assert forall j :: 0 <= j < |d| ==> d[j] == f.mtimeIso[j];
  }

  /** The generator's own output reads back as the fixed pages followed by one entry per blog
      file, given file names and timestamps without line breaks. */
  lemma GeneratedSitemapReadsBack(files: seq<BlogFile>)
    requires forall f :: f in files ==> '\n' !in f.name && '\n' !in f.mtimeIso
    ensures ParseSitemap(Render(AllPages(Some(files)))) == Some(NormalAll(AllPages(Some(files))))
    ensures |AllPages(Some(files))| == 2 + |HtmlFiles(files)|
  {
    var pages := AllPages(Some(files));
    var posts := BlogPosts(Some(files));
    StaticPagesSingleLine();
    forall k | 0 <= k < |posts|
      ensures SingleLine(posts[k])
    {
      var f := HtmlFiles(files)[k];
      assert f in HtmlFiles(files);
      PostPageSingleLine(f);
    }
    assert forall k :: 0 <= k < |pages| ==> SingleLine(pages[k]) by {
      forall k | 0 <= k < |pages|
        ensures SingleLine(pages[k])
      {
        if k >= 2 {
          assert pages[k] == posts[k - 2];
        }
      }
    }
    ParseRender(pages);
  }
}

=== FILE: text.dfy ===
/** The JavaScript string operations the site's scripts rely on, on `seq<char>`:
    `indexOf`, `startsWith`/`endsWith`, `split` on one character and its inverse `join`,
    `replace` of the first occurrence of a literal, `toLowerCase` and a leading-space trim. */
module Text {

  /** `p` is a prefix of `s` (`s.startsWith(p)`). */
  predicate IsPrefix(p: string, s: string) {
    |p| <= |s| && s[..|p|] == p
  }

  /** `s.endsWith(p)`. */
  predicate EndsWith(s: string, p: string) {
    |p| <= |s| && s[|s| - |p|..] == p
  }

  /** `t` occurs in `s` starting at index `i`. */
  predicate OccursAt(s: string, t: string, i: int) {
    0 <= i && i + |t| <= |s| && s[i..i + |t|] == t
  }

  /** `s.indexOf(t, from)`: the first index at or after `from` where `t` occurs, or -1. */
  function IndexOfFrom(s: string, t: string, from: nat): (r: int)
    requires from <= |s|
    ensures r == -1 || (from <= r && OccursAt(s, t, r))
    ensures r == -1 ==> forall i :: from <= i ==> !OccursAt(s, t, i)
    ensures r != -1 ==> forall i :: from <= i < r ==> !OccursAt(s, t, i)
    decreases |s| - from
  {
    if OccursAt(s, t, from) then from
    else if from == |s| then -1
    else IndexOfFrom(s, t, from + 1)
  }

  /** `s.indexOf(t)`. */
  function IndexOf(s: string, t: string): (r: int)
    ensures r == -1 || OccursAt(s, t, r)
    ensures r == -1 <==> forall i :: !OccursAt(s, t, i)
    ensures r != -1 ==> forall i :: 0 <= i < r ==> !OccursAt(s, t, i)
  {
    IndexOfFrom(s, t, 0)
  }

  /** `s.indexOf(t) !== -1`. */
  predicate Contains(s: string, t: string) {
    IndexOf(s, t) != -1
  }

  /** The source's `s.indexOf(p) === 0` test is exactly "starts with `p`". */
  lemma IndexOfZeroIsPrefix(s: string, p: string)
    ensures IndexOf(s, p) == 0 <==> IsPrefix(p, s)
  {
    if IsPrefix(p, s) {
      assert OccursAt(s, p, 0);
    }
  }

  /** An occurrence of `t` contains an occurrence of every prefix of `t`. */
  lemma ContainsPrefixOf(s: string, t: string, u: string)
    requires Contains(s, t)
    requires IsPrefix(u, t)
    ensures Contains(s, u)
  {
    var i := IndexOf(s, t);
    assert OccursAt(s, t, i);
    assert |u| <= |t| && i + |t| <= |s|;
    assert s[i..i + |u|] == s[i..i + |t|][..|u|];
    assert OccursAt(s, u, i);
  }

  /** Text placed between two others is found there. */
  lemma ContainsMiddle(a: string, t: string, b: string)
    ensures Contains(a + t + b, t)
  {
    assert (a + t + b)[|a|..|a| + |t|] == t;
    assert OccursAt(a + t + b, t, |a|);
  }

  /** `s.split(sep)` for a one-character separator: never empty, and no piece holds `sep`. */
  function Split(s: string, sep: char): (parts: seq<string>)
    ensures |parts| >= 1
    ensures forall k :: 0 <= k < |parts| ==> sep !in parts[k]
    decreases |s|
  {
    if |s| == 0 then [""]
    else
      var rest := Split(s[1..], sep);
      if s[0] == sep then [""] + rest
      else [[s[0]] + rest[0]] + rest[1..]
  }

  /** `parts.join(sep)`. */
  function Join(parts: seq<string>, sep: char): string
  {
    if |parts| == 0 then ""
    else if |parts| == 1 then parts[0]
    else parts[0] + [sep] + Join(parts[1..], sep)
  }

  /** Joining the pieces of a split gives back the original text. */
  lemma {:induction false} JoinSplit(s: string, sep: char)
    ensures Join(Split(s, sep), sep) == s
    decreases |s|
  {
    if |s| > 0 {
      var rest := Split(s[1..], sep);
      JoinSplit(s[1..], sep);
      if s[0] == sep {
        JoinCons("", rest, sep);
        assert s == [sep] + s[1..];
      } else if |rest| == 1 {
        assert s == [s[0]] + s[1..];
      } else {
        var parts := Split(s, sep);
        assert parts == [[s[0]] + rest[0]] + rest[1..];
        JoinCons([s[0]] + rest[0], rest[1..], sep);
        JoinCons(rest[0], rest[1..], sep);
        assert [rest[0]] + rest[1..] == rest;
        assert s == [s[0]] + s[1..];
      }
    }
  }

  /** Joining a piece in front of a non-empty list inserts one separator. */
  lemma JoinCons(a: string, rest: seq<string>, sep: char)
    requires |rest| >= 1
    ensures Join([a] + rest, sep) == a + [sep] + Join(rest, sep)
  {
    assert ([a] + rest)[1..] == rest;
  }

  /** Splitting text that starts with a separator-free piece peels that piece off. */
  lemma {:induction false} SplitAfterPiece(a: string, sep: char, b: string)
    requires sep !in a
    ensures Split(a + [sep] + b, sep) == [a] + Split(b, sep)
    decreases |a|
  {
    if |a| == 0 {
      assert a + [sep] + b == [sep] + b;
      assert ([sep] + b)[1..] == b;
    } else {
      SplitAfterPiece(a[1..], sep, b);
      assert (a + [sep] + b)[1..] == a[1..] + [sep] + b;
      assert [a[0]] + a[1..] == a;
    }
  }

  /** Text without the separator splits into itself alone. */
  lemma {:induction false} SplitWithoutSep(a: string, sep: char)
    requires sep !in a
    ensures Split(a, sep) == [a]
    decreases |a|
  {
    if |a| > 0 {
      SplitWithoutSep(a[1..], sep);
      assert [a[0]] + a[1..] == a;
    }
  }

  /** Splitting a join of separator-free pieces gives back the pieces. */
  lemma {:induction false} SplitJoin(parts: seq<string>, sep: char)
    requires |parts| >= 1
    requires forall k :: 0 <= k < |parts| ==> sep !in parts[k]
    ensures Split(Join(parts, sep), sep) == parts
    decreases |parts|
  {
    if |parts| == 1 {
      SplitWithoutSep(parts[0], sep);
    } else {
      SplitJoin(parts[1..], sep);
      SplitAfterPiece(parts[0], sep, Join(parts[1..], sep));
      assert [parts[0]] + parts[1..] == parts;
    }
  }

  /** `s.split(sep)[0]`: the text before the first `sep`, or all of `s`. */
  function Before(s: string, sep: char): (r: string)
    ensures sep !in r
  {
    Split(s, sep)[0]
  }

  /** `Before` is the longest prefix without the separator: what follows it, if anything, is the separator. */
  lemma BeforeIsLongestSepFreePrefix(s: string, sep: char)
    ensures IsPrefix(Before(s, sep), s)
    ensures |Before(s, sep)| < |s| ==> s[|Before(s, sep)|] == sep
  {
    var parts := Split(s, sep);
    JoinSplit(s, sep);
    if |parts| > 1 {
      assert s == parts[0] + ([sep] + Join(parts[1..], sep));
    }
  }

  /** `Before` on a separator-free piece followed by the separator yields the piece. */
  lemma BeforeOfPiece(a: string, sep: char, b: string)
    requires sep !in a
    ensures Before(a + [sep] + b, sep) == a
  {
    SplitAfterPiece(a, sep, b);
  }

  /** `s.replace(pat, rep)` with a literal pattern: only the first occurrence is replaced. */
  function ReplaceFirst(s: string, pat: string, rep: string): string
  {
    var i := IndexOf(s, pat);
    if i == -1 then s else s[..i] + rep + s[i + |pat|..]
  }

  /** `t` overlaps itself nowhere: no proper non-empty prefix of `t` is also a suffix of it. */
  predicate BorderFree(t: string) {
    forall l :: 0 < l < |t| ==> t[..l] != t[|t| - l..]
  }

  /** In `pre + t + post`, a border-free `t` that does not occur inside `pre` first occurs right after `pre`. */
  lemma FirstOccurrenceAfter(pre: string, t: string, post: string)
    requires BorderFree(t)
    requires |t| > 0
    requires forall i :: !OccursAt(pre, t, i)
    ensures IndexOf(pre + t + post, t) == |pre|
  {
    var s := pre + t + post;
    assert OccursAt(s, t, |pre|) by {
      assert s[|pre|..|pre| + |t|] == t;
    }
    forall i | 0 <= i < |pre|
      ensures !OccursAt(s, t, i)
    {
      if i + |t| <= |pre| {
        assert s[i..i + |t|] == pre[i..i + |t|];
        assert !OccursAt(pre, t, i);
      } else {
        var l := i + |t| - |pre|;
        assert s[i..i + |t|][|t| - l..] == s[|pre|..i + |t|];
        assert s[|pre|..|pre| + l] == t[..l];
        assert t[..l] != t[|t| - l..];
      }
    }
  }

  /** ASCII `toLowerCase` of one character. */
  function LowerChar(c: char): char {
    if 'A' <= c <= 'Z' then (c as int + 32) as char else c
  }

  /** `s.toLowerCase()` restricted to ASCII letters. */
  function ToLower(s: string): (r: string)
    ensures |r| == |s|
    ensures forall i :: 0 <= i < |s| ==> r[i] == LowerChar(s[i])
  {
    seq(|s|, i requires 0 <= i < |s| => LowerChar(s[i]))
  }

  /** Lowering a concatenation lowers each part. */
  lemma ToLowerAppend(a: string, b: string)
    ensures ToLower(a + b) == ToLower(a) + ToLower(b)
  {
    assert forall i :: |a| <= i < |a| + |b| ==> (a + b)[i] == b[i - |a|];
  }

  /** `while (c.charAt(0) === ' ') c = c.substring(1)`: drop leading spaces (only the space character). */
  function TrimLeadingSpaces(s: string): (r: string)
    ensures r == "" || r[0] != ' '
    ensures EndsWith(s, r)
    ensures forall i :: 0 <= i < |s| - |r| ==> s[i] == ' '
    decreases |s|
  {
    if |s| > 0 && s[0] == ' ' then TrimLeadingSpaces(s[1..]) else s
  }

  /** The index of the last `c` in `s`, or -1 (`s.lastIndexOf(c)`). */
  function LastIndexOf(s: string, c: char): (r: int)
    ensures -1 <= r < |s|
    ensures r >= 0 ==> s[r] == c
    ensures forall i :: r < i < |s| ==> s[i] != c
    decreases |s|
  {
    if |s| == 0 then -1
    else if s[|s| - 1] == c then |s| - 1
    else LastIndexOf(s[..|s| - 1], c)
  }
}

=== FILE: ux.dfy ===
/** The small state machines of public/components/ux-enhancements.js: the audience gate and
    the stored audience choice, the idle pulse on the hero call to action, the trust ticker,
    progressive disclosure, the FAQ accordion and the exit-intent modal. Timers are replaced
    by explicit tick events, storage by a map (`localStorage`/`sessionStorage`) and a cookie
    jar (`document.cookie`), and analytics calls by the events they would send. */
module Ux {
  import opened Options
  import opened Text
  import opened Cookies

  // ---- Audience gate ----

  const AudienceKey := "alavanka-audience"
  const PrefCookie := "alavanka-pref"
  const OwnDomain := "alavanka.com"

  /** A stored string is truthy when present and non-empty. */
  predicate Truthy(v: Option<string>) {
    v.Some? && v.value != ""
  }

  function GetItem(store: map<string, string>, key: string): (v: Option<string>)
    ensures v.Some? <==> key in store
    ensures v.Some? ==> v.value == store[key]
  {
    if key in store then Some(store[key]) else None
  }

  /** `shouldShowGate`: the gate is skipped when the visitor already chose (in local storage or
      in the preference cookie) or arrived from a page of the site itself. */
  function ShouldShowGate(local: map<string, string>, cookie: string, referrer: string): (show: bool)
    ensures !show <==>
      || Truthy(GetItem(local, AudienceKey))
      || Truthy(GetCookie(cookie, PrefCookie))
      || (referrer != "" && IndexOf(referrer, OwnDomain) != -1)
  {
    if Truthy(GetItem(local, AudienceKey)) then false
    else if Truthy(GetCookie(cookie, PrefCookie)) then false
    else if referrer != "" && Contains(referrer, OwnDomain) then false
    else true
  }

  /** The gate and the stores it uses. */
  datatype GateWorld = GateWorld(local: map<string, string>, jar: seq<Cookie>, visible: bool, skipClass: bool)

  /** `initAudienceGate` on a page with a gate: show it (after its entrance delay) and drop the
      `gate-skip` class, or set that class and leave the gate hidden. */
  function InitGate(w: GateWorld, referrer: string): (w': GateWorld)
    ensures w'.local == w.local && w'.jar == w.jar
    ensures w'.visible == (w.visible || ShouldShowGate(w.local, CookieString(w.jar), referrer))
    ensures w'.skipClass == !ShouldShowGate(w.local, CookieString(w.jar), referrer)
  {
    var show := ShouldShowGate(w.local, CookieString(w.jar), referrer);
    w.(skipClass := !show, visible := w.visible || show)
  }

  /** What `handleChoice` sends: the scroll to the investors section (for `investidor`) and the
      `audience_selected` event with the choice. */
  datatype ChoiceEffects = ChoiceEffects(scrollToInvestors: bool, audienceSelected: string)

  /** `handleChoice(choice)`: store the choice locally and in the preference cookie, hide the gate. */
  function HandleChoice(w: GateWorld, choice: string): (r: (GateWorld, ChoiceEffects))
    ensures GetItem(r.0.local, AudienceKey) == Some(choice)
    ensures Lookup(r.0.jar, PrefCookie) == Some(choice)
    ensures !r.0.visible && r.0.skipClass == w.skipClass
    ensures forall k :: k != AudienceKey ==> GetItem(r.0.local, k) == GetItem(w.local, k)
    ensures forall n :: n != PrefCookie ==> Lookup(r.0.jar, n) == Lookup(w.jar, n)
    ensures r.1.scrollToInvestors <==> choice == "investidor"
  {
    (GateWorld(w.local[AudienceKey := choice], SetCookie(w.jar, PrefCookie, choice), false, w.skipClass),
     ChoiceEffects(choice == "investidor", choice))
  }

  /** Once a choice is made, the gate stays away on every later visit, whatever the referrer:
      the three buttons store `founder`, `investidor` or `skip`. */
  lemma ChoiceSuppressesGate(w: GateWorld, choice: string, referrer: string)
    requires JarWellFormed(w.jar)
    requires choice in {"founder", "investidor", "skip"}
    ensures !ShouldShowGate(HandleChoice(w, choice).0.local, CookieString(HandleChoice(w, choice).0.jar), referrer)
    ensures JarWellFormed(HandleChoice(w, choice).0.jar)
    ensures GetCookie(CookieString(HandleChoice(w, choice).0.jar), PrefCookie) == Some(choice)
  {
    var w' := HandleChoice(w, choice).0;
    assert WellFormed(Cookie(PrefCookie, choice));
    SetCookieWellFormed(w.jar, PrefCookie, choice);
    GetCookieLookup(w'.jar, PrefCookie);
  }

  /** The cookie alone suppresses the gate: with local storage cleared, a stored preference
      still hides it. */
  lemma CookieAloneSuppressesGate(jar: seq<Cookie>, choice: string, referrer: string)
    requires JarWellFormed(jar) && choice != "" && ';' !in choice
    ensures !ShouldShowGate(map[], CookieString(SetCookie(jar, PrefCookie, choice)), referrer)
  {
    SetCookieWellFormed(jar, PrefCookie, choice);
    GetCookieLookup(SetCookie(jar, PrefCookie, choice), PrefCookie);
  }

  // ---- Idle pulse ----

  /** Seconds since the last activity and whether the hero button carries `idle-pulse`. */
  datatype Idle = Idle(seconds: nat, pulse: bool)

  const PulseAfter := 5

  /** The one-second interval: count, and start pulsing from the fifth second on. */
  function Tick(s: Idle): (s': Idle)
    ensures s'.seconds == s.seconds + 1
    ensures s'.pulse <==> s.pulse || s'.seconds >= PulseAfter
  {
    var seconds := s.seconds + 1;
    Idle(seconds, s.pulse || seconds >= PulseAfter)
  }

  /** `resetIdleTimer` (mouse move, key press, scroll, touch, hovering or clicking the button). */
  const IdleReset := Idle(0, false)

  datatype IdleEvent = Second | Activity

  function IdleStep(s: Idle, e: IdleEvent): Idle {
    match e
    case Second => Tick(s)
    case Activity => IdleReset
  }

  function IdleRun(s: Idle, events: seq<IdleEvent>): Idle
    decreases |events|
  {
    if |events| == 0 then s else IdleRun(IdleStep(s, events[0]), events[1..])
  }

  /** The seconds counted since the last activity in `events`, starting from `start`. */
  function QuietSeconds(start: nat, events: seq<IdleEvent>): nat
    decreases |events|
  {
    if |events| == 0 then start
    else if events[|events| - 1] == Activity then 0
    else QuietSeconds(start, events[..|events| - 1]) + 1
  }

  /** The counter and the class agree: pulsing exactly from five seconds on. */
  predicate IdleInv(s: Idle) {
    s.pulse <==> s.seconds >= PulseAfter
  }

  lemma {:induction false} IdleRunSnoc(s: Idle, events: seq<IdleEvent>, e: IdleEvent)
    ensures IdleRun(s, events + [e]) == IdleStep(IdleRun(s, events), e)
    decreases |events|
  {
    if |events| > 0 {
      assert (events + [e])[1..] == events[1..] + [e];
      IdleRunSnoc(IdleStep(s, events[0]), events[1..], e);
    }
  }

  /** After any activity and timer events, the counter is the number of seconds since the last
      activity, and the button pulses exactly when that is at least five. */
  lemma {:induction false} IdlePulseTracksQuietTime(s: Idle, events: seq<IdleEvent>)
    requires IdleInv(s)
    ensures IdleRun(s, events).seconds == QuietSeconds(s.seconds, events)
    ensures IdleInv(IdleRun(s, events))
    decreases |events|
  {
    if |events| > 0 {
      var init := events[..|events| - 1];
      var e := events[|events| - 1];
      assert events == init + [e];
      IdlePulseTracksQuietTime(s, init);
      IdleRunSnoc(s, init, e);
    }
  }

  // ---- Trust ticker ----

  /** The rotating items: which is current and the `active` class of each. */
  datatype Ticker = Ticker(current: nat, active: seq<bool>)

  /** Exactly the current item is active. */
  predicate TickerInv(t: Ticker) {
    && t.current < |t.active|
    && forall i :: 0 <= i < |t.active| ==> (t.active[i] <==> i == t.current)
  }

  /** `initTrustTicker` over the items as rendered (`rendered[i]` tells whether item `i`
      already carries `active`): nothing without items, else the first item gains `active` and
      no other item is touched. */
  function InitTicker(rendered: seq<bool>): (t: Option<Ticker>)
    ensures |rendered| == 0 <==> t.None?
    ensures t.Some? ==> t.value.current == 0 && |t.value.active| == |rendered| && t.value.active[0]
    ensures t.Some? ==> forall i :: 0 < i < |rendered| ==> t.value.active[i] == rendered[i]
    ensures t.Some? ==> (TickerInv(t.value) <==> forall i :: 0 < i < |rendered| ==> !rendered[i])
  {
    if |rendered| == 0 then None else Some(Ticker(0, rendered[0 := true]))
  }

  /** Every three seconds: deactivate the current item and activate the next, wrapping round. */
  function Rotate(t: Ticker): (t': Ticker)
    requires t.current < |t.active|
    ensures |t'.active| == |t.active|
    ensures t'.current == (t.current + 1) % |t.active|
    ensures TickerInv(t) ==> TickerInv(t')
  {
    var n := |t.active|;
    var next := (t.current + 1) % n;
    Ticker(next, t.active[t.current := false][next := true])
  }

  function RotateTimes(t: Ticker, k: nat): (t': Ticker)
    requires t.current < |t.active|
    ensures |t'.active| == |t.active| && t'.current < |t'.active|
    decreases k
  {
    if k == 0 then t else RotateTimes(Rotate(t), k - 1)
  }

  /** With no item but the first rendered active, after `k` rotations item `k mod n` alone is
      active. */
  lemma {:induction false} TickerAfterRotations(rendered: seq<bool>, k: nat)
    requires |rendered| > 0
    requires forall i :: 0 < i < |rendered| ==> !rendered[i]
    ensures TickerInv(RotateTimes(InitTicker(rendered).value, k))
    ensures RotateTimes(InitTicker(rendered).value, k).current == k % |rendered|
    decreases k
  {
    if k > 0 {
      RotationsShift(InitTicker(rendered).value, k - 1);
      TickerAfterRotations(rendered, k - 1);
      ModSucc(k - 1, |rendered|);
    }
  }

  /** An item rendered with `active` keeps it until the rotation reaches it, so during the
      first pass two items are active at once. */
  lemma {:induction false} PreMarkedItemStaysActive(rendered: seq<bool>, j: nat, k: nat)
    requires 0 < j < |rendered| && rendered[j] && k < j
    ensures RotateTimes(InitTicker(rendered).value, k).current == k
    ensures RotateTimes(InitTicker(rendered).value, k).active[j]
    ensures !TickerInv(RotateTimes(InitTicker(rendered).value, k))
    decreases k
  {
    var t0 := InitTicker(rendered).value;
    if k > 0 {
      RotationsShift(t0, k - 1);
      PreMarkedItemStaysActive(rendered, j, k - 1);
      var t := RotateTimes(t0, k - 1);
      ModUnique(k, |t.active|, 0, k);
      var t' := Rotate(t);
      assert t'.current == k;
      assert t'.active == t.active[k - 1 := false][k := true];
    }
    var t := RotateTimes(t0, k);
    assert t.current != j && t.active[j];
  }

  /** Counting modulo `n` one step at a time. */
  lemma ModSucc(a: nat, n: nat)
    requires n > 0
    ensures ((a % n) + 1) % n == (a + 1) % n
  {
    var q, r := a / n, a % n;
    assert a == q * n + r;
    if r + 1 < n {
      ModUnique(a + 1, n, q, r + 1);
      ModUnique(r + 1, n, 0, r + 1);
    } else {
      assert a + 1 == (q + 1) * n;
      ModUnique(a + 1, n, q + 1, 0);
      ModUnique(r + 1, n, 1, 0);
    }
  }

  /** The remainder is determined by any decomposition `a == q * n + r` with `0 <= r < n`. */
  lemma ModUnique(a: int, n: int, q: int, r: int)
    requires n > 0 && 0 <= r < n && a == q * n + r
    ensures a % n == r
  {
    var q', r' := a / n, a % n;
    assert a == q' * n + r';
    assert (q - q') * n == r' - r by {
      assert q * n - q' * n == (q - q') * n;
    }
    assert (q' - q) * n == -((q - q') * n);
    if q > q' {
      MulAtLeast(q - q', n);
    } else if q < q' {
      MulAtLeast(q' - q, n);
    }
  }

  lemma {:induction false} MulAtLeast(x: int, n: int)
    requires x >= 1 && n > 0
    ensures x * n >= n
    decreases x
  {
    if x > 1 {
      MulAtLeast(x - 1, n);
      assert x * n == (x - 1) * n + n;
    }
  }

  /** One more rotation is a rotation of the result. */
  lemma {:induction false} RotationsShift(t: Ticker, k: nat)
    requires t.current < |t.active|
    ensures RotateTimes(t, k + 1) == Rotate(RotateTimes(t, k))
    decreases k
  {
    if k > 0 {
      RotationsShift(Rotate(t), k - 1);
    }
  }

  // ---- Progressive disclosure ----

  /** The target's and the trigger's `expanded` classes and the trigger's text. */
  datatype Disclosure = Disclosure(targetExpanded: bool, triggerExpanded: bool, caption: string)

  const MoreLabel := "Ver mais"
  const LessLabel := "Ocultar"

  /** A click on an `.expand-trigger`: nothing when its target is missing; otherwise collapse an
      expanded target (first `Ocultar` becomes `Ver mais`) or expand it (the reverse). */
  function ClickTrigger(d: Disclosure, targetExists: bool): (d': Disclosure)
    ensures !targetExists ==> d' == d
    ensures targetExists ==> d'.targetExpanded == !d.targetExpanded && d'.triggerExpanded == !d.targetExpanded
    ensures targetExists && !Contains(d.caption, if d.targetExpanded then LessLabel else MoreLabel) ==>
      d'.caption == d.caption
    ensures targetExists && !d.targetExpanded ==>
      var i := IndexOf(d.caption, MoreLabel);
      i != -1 ==>
        && |d'.caption| == |d.caption| - |MoreLabel| + |LessLabel|
        && d'.caption[..i] == d.caption[..i] && OccursAt(d'.caption, LessLabel, i)
        && d'.caption[i + |LessLabel|..] == d.caption[i + |MoreLabel|..]
    ensures targetExists && d.targetExpanded ==>
      var i := IndexOf(d.caption, LessLabel);
      i != -1 ==>
        && |d'.caption| == |d.caption| - |LessLabel| + |MoreLabel|
        && d'.caption[..i] == d.caption[..i] && OccursAt(d'.caption, MoreLabel, i)
        && d'.caption[i + |MoreLabel|..] == d.caption[i + |LessLabel|..]
  {
    if !targetExists then d
    else if d.targetExpanded then Disclosure(false, false, ReplaceFirst(d.caption, LessLabel, MoreLabel))
    else Disclosure(true, true, ReplaceFirst(d.caption, MoreLabel, LessLabel))
  }

  /** A word whose first letter does not recur cannot overlap itself. */
  lemma FirstLetterUnique(t: string)
    requires |t| > 0 && t[0] !in t[1..]
    ensures BorderFree(t)
  {
    forall l | 0 < l < |t|
      ensures t[..l] != t[|t| - l..]
    {
      assert t[|t| - l..][0] == t[1..][|t| - l - 1];
    }
  }

  /** Replacing the first occurrence of `a` by `b`, then the first `b` by `a`, restores a text
      that held `a` and no `b`, when `b` cannot overlap itself. */
  lemma ReplaceRoundTrip(s: string, a: string, b: string)
    requires Contains(s, a) && !Contains(s, b)
    requires |b| > 0 && BorderFree(b)
    ensures ReplaceFirst(ReplaceFirst(s, a, b), b, a) == s
  {
    var i := IndexOf(s, a);
    var pre := s[..i];
    var post := s[i + |a|..];
    assert s == pre + a + post;
    forall j
      ensures !OccursAt(pre, b, j)
    {
      assert !OccursAt(s, b, j);
    }
    FirstOccurrenceAfter(pre, b, post);
    var t := pre + b + post;
    assert ReplaceFirst(s, a, b) == t;
    assert t[..|pre|] == pre && t[|pre| + |b|..] == post;
  }

  /** Expanding and then collapsing restores the trigger's text and both classes, for a text
      offering `Ver mais` and not yet `Ocultar`. */
  lemma ExpandCollapseRestores(caption: string)
    requires Contains(caption, MoreLabel) && !Contains(caption, LessLabel)
    ensures ClickTrigger(ClickTrigger(Disclosure(false, false, caption), true), true) == Disclosure(false, false, caption)
  {
    assert LessLabel[0] !in LessLabel[1..];
    FirstLetterUnique(LessLabel);
    ReplaceRoundTrip(caption, MoreLabel, LessLabel);
  }

  // ---- FAQ accordion ----

  /** No two items are open. */
  predicate AtMostOne(open: seq<bool>) {
    forall i, j :: 0 <= i < |open| && 0 <= j < |open| && open[i] && open[j] ==> i == j
  }

  /** An `.faq-item` as the initialisation sees it: whether it is the first child of its parent
      (`:first-child`) and whether it holds a `.faq-question` and a `.faq-answer`. */
  datatype FaqItem = FaqItem(firstChild: bool, hasQuestion: bool, hasAnswer: bool)

  /** `document.querySelector('.faq-item:first-child')`: the first item, in document order, that
      is the first child of its parent. */
  function FirstChildItem(items: seq<FaqItem>): (k: Option<nat>)
    ensures k.Some? ==> k.value < |items| && items[k.value].firstChild
    ensures k.Some? ==> forall j :: 0 <= j < k.value ==> !items[j].firstChild
    ensures k.None? ==> forall j :: 0 <= j < |items| ==> !items[j].firstChild
  {
    if |items| == 0 then None
    else if items[0].firstChild then Some(0)
    else
      match FirstChildItem(items[1..])
      case None => None
      case Some(k) => Some(k + 1)
  }

  /** The accordion after initialisation: the items' `active` flags and whether the question
      click handlers were installed. */
  datatype Faq = Faq(open: seq<bool>, installed: bool)

  /** `initFAQAutoOpen` over the items with their rendered `active` flags: when the
      `:first-child` item exists and holds both a question and an answer, it opens and the
      click handlers are installed; otherwise the function returns early and nothing changes. */
  function InitFaq(items: seq<FaqItem>, open: seq<bool>): (f: Faq)
    requires |open| == |items|
    ensures |f.open| == |open|
    ensures f.installed <==>
      FirstChildItem(items).Some? && items[FirstChildItem(items).value].hasQuestion
      && items[FirstChildItem(items).value].hasAnswer
    ensures f.installed ==> f.open[FirstChildItem(items).value]
    ensures forall i :: 0 <= i < |open| && (!f.installed || i != FirstChildItem(items).value) ==> f.open[i] == open[i]
  {
    match FirstChildItem(items)
    case None => Faq(open, false)
    case Some(k) =>
      if items[k].hasQuestion && items[k].hasAnswer then Faq(open[k := true], true) else Faq(open, false)
  }

  /** A click on the question of item `i`: an open item closes; a closed one opens and every
      other open item closes. The flag reports whether `faq_open` is sent. */
  function ClickQuestion(open: seq<bool>, i: nat): (r: (seq<bool>, bool))
    requires i < |open|
    ensures |r.0| == |open|
    ensures r.1 <==> !open[i]
    ensures open[i] ==> !r.0[i] && forall j :: 0 <= j < |open| && j != i ==> r.0[j] == open[j]
    ensures !open[i] ==> forall j :: 0 <= j < |open| ==> (r.0[j] <==> j == i)
  {
    if open[i] then (open[i := false], false)
    else (seq(|open|, j => j == i), true)
  }

  /** Clicks keep the accordion exclusive. */
  lemma ClickKeepsAtMostOne(open: seq<bool>, i: nat)
    requires i < |open| && AtMostOne(open)
    ensures AtMostOne(ClickQuestion(open, i).0)
  {
  }

  /** Opening an item of any accordion leaves it the only open one. */
  lemma OpeningIsExclusive(open: seq<bool>, i: nat)
    requires i < |open| && !open[i]
    ensures AtMostOne(ClickQuestion(open, i).0)
    ensures ClickQuestion(open, i).0[i]
  {
  }

  function FaqRun(open: seq<bool>, clicks: seq<nat>): (open': seq<bool>)
    requires forall k :: 0 <= k < |clicks| ==> clicks[k] < |open|
    ensures |open'| == |open|
    decreases |clicks|
  {
    if |clicks| == 0 then open else FaqRun(ClickQuestion(open, clicks[0]).0, clicks[1..])
  }

  /** A page load: initialisation, then the question clicks, which act only when the
      handlers were installed. */
  function FaqSession(items: seq<FaqItem>, open: seq<bool>, clicks: seq<nat>): (open': seq<bool>)
    requires |open| == |items|
    requires forall k :: 0 <= k < |clicks| ==> clicks[k] < |items|
    ensures |open'| == |open|
    ensures FirstChildItem(items).None? ==> open' == open
    ensures !InitFaq(items, open).installed ==> open' == open
  {
    var f := InitFaq(items, open);
    if f.installed then FaqRun(f.open, clicks) else f.open
  }

  /** A page rendered with every item closed has at most one open item after initialisation and
      any sequence of question clicks. */
  lemma {:induction false} FaqExclusive(items: seq<FaqItem>, clicks: seq<nat>)
    requires forall k :: 0 <= k < |clicks| ==> clicks[k] < |items|
    ensures AtMostOne(FaqSession(items, seq(|items|, _ => false), clicks))
  {
    var closed := seq(|items|, _ => false);
    var f := InitFaq(items, closed);
    assert AtMostOne(f.open) by {
      forall i, j | 0 <= i < |f.open| && 0 <= j < |f.open| && f.open[i] && f.open[j]
        ensures i == j
      {
        assert f.installed && i == FirstChildItem(items).value && j == FirstChildItem(items).value;
      }
    }
    if f.installed {
      FaqRunKeepsAtMostOne(f.open, clicks);
    }
  }

  lemma {:induction false} FaqRunKeepsAtMostOne(open: seq<bool>, clicks: seq<nat>)
    requires forall k :: 0 <= k < |clicks| ==> clicks[k] < |open|
    requires AtMostOne(open)
    ensures AtMostOne(FaqRun(open, clicks))
    decreases |clicks|
  {
    if |clicks| > 0 {
      ClickKeepsAtMostOne(open, clicks[0]);
      FaqRunKeepsAtMostOne(ClickQuestion(open, clicks[0]).0, clicks[1..]);
    }
  }

  // ---- Exit intent ----

  const ExitWidth := 1024
  const ExitThreshold := 50
  const ShownKey := "exit-intent-shown"

  /** The modal's `visible` class, session storage, and how many `exit_intent_triggered`
      events were sent. */
  datatype Exit = Exit(visible: bool, session: map<string, string>, triggered: nat)

  /** `initExitIntent`: handlers are installed only at desktop width, when this session has not
      shown the modal yet and the page has one. */
  function InitExit(width: int, session: map<string, string>, modalExists: bool): (e: Option<Exit>)
    ensures e.Some? <==> width >= ExitWidth && !Truthy(GetItem(session, ShownKey)) && modalExists
    ensures e.Some? ==> e.value == Exit(false, session, 0)
  {
    if width < ExitWidth then None
    else if Truthy(GetItem(session, ShownKey)) then None
    else if !modalExists then None
    else Some(Exit(false, session, 0))
  }

  datatype ExitEvent = MouseLeave(clientY: int) | CloseClick | BackdropClick(onModal: bool) | Escape

  /** The installed handlers. The flag read at installation is never refreshed, so every
      leave through the top re-shows the modal, even after the session flag was written. */
  function ExitStep(e: Exit, ev: ExitEvent): (e': Exit)
    ensures ev.MouseLeave? && ev.clientY <= ExitThreshold ==>
      e'.visible && e'.triggered == e.triggered + 1 && GetItem(e'.session, ShownKey) == Some("true")
    ensures !(ev.MouseLeave? && ev.clientY <= ExitThreshold) ==> e'.triggered == e.triggered && e'.session == e.session
    ensures ev.MouseLeave? && ev.clientY > ExitThreshold ==> e' == e
    ensures ev.CloseClick? || ev.Escape? || (ev.BackdropClick? && ev.onModal) ==> !e'.visible
    ensures ev.BackdropClick? && !ev.onModal ==> e' == e
    ensures ev.MouseLeave? && ev.clientY <= ExitThreshold ==> e'.session == e.session[ShownKey := "true"]
  {
    match ev
    case MouseLeave(y) =>
      if y <= ExitThreshold then Exit(true, e.session[ShownKey := "true"], e.triggered + 1) else e
    case CloseClick => e.(visible := false)
    case BackdropClick(onModal) => if onModal then e.(visible := false) else e
    case Escape => e.(visible := false)
  }

  function ExitRun(e: Exit, events: seq<ExitEvent>): Exit
    decreases |events|
  {
    if |events| == 0 then e else ExitRun(ExitStep(e, events[0]), events[1..])
  }

  /** Leaving through the top, closing the modal and leaving again shows it a second time and
      sends the event twice within one page load. */
  lemma ExitIntentRepeats(width: int, session: map<string, string>)
    requires width >= ExitWidth && !Truthy(GetItem(session, ShownKey))
    ensures var e := ExitRun(InitExit(width, session, true).value, [MouseLeave(0), CloseClick, MouseLeave(10)]);
      e.visible && e.triggered == 2
  {
    var e0 := InitExit(width, session, true).value;
    var e1 := ExitStep(e0, MouseLeave(0));
    var e2 := ExitStep(e1, CloseClick);
    var e3 := ExitStep(e2, MouseLeave(10));
    assert ExitRun(e0, [MouseLeave(0), CloseClick, MouseLeave(10)]) == ExitRun(e1, [CloseClick, MouseLeave(10)]);
    assert ExitRun(e1, [CloseClick, MouseLeave(10)]) == ExitRun(e2, [MouseLeave(10)]);
    assert ExitRun(e2, [MouseLeave(10)]) == ExitRun(e3, []);
  }

  /** The events sent in one page load are exactly the leaves through the top. */
  lemma {:induction false} ExitTriggeredCount(e: Exit, events: seq<ExitEvent>)
    ensures ExitRun(e, events).triggered == e.triggered + TopLeaves(events)
    decreases |events|
  {
    if |events| > 0 {
      ExitTriggeredCount(ExitStep(e, events[0]), events[1..]);
    }
  }

  function TopLeaves(events: seq<ExitEvent>): nat
    decreases |events|
  {
    if |events| == 0 then 0
    else (if events[0].MouseLeave? && events[0].clientY <= ExitThreshold then 1 else 0) + TopLeaves(events[1..])
  }

  /** Once the modal was shown, a later page load in the same session installs nothing. */
  lemma ShownOncePerSession(e: Exit, y: int, width: int, modalExists: bool)
    requires y <= ExitThreshold
    ensures InitExit(width, ExitStep(e, MouseLeave(y)).session, modalExists).None?
  {
  }
}
